=== FILE: README.md ===
# Virtual-site generation for linear and planar groups

This project is a Dafny model of `src/alexandria/gentop_vsite.c`. That file is the part of the
GROMACS-based Alexandria topology generator that rewrites a molecular topology so that rigid
linear and planar atom groups are represented with virtual interaction sites.

The model follows the C code's five parts, one module each:

- `Registry` (`registry.dfy`): the geometry registry. It holds the generation mode and the
  registered linear triples and planar quadruples. Duplicates are skipped, using exactly the
  C code's duplicate tests.
- `Merge` (`merge.dfy`): the merge pass (`gentop_vsite_check`).
  - Every linear group is reset to a triple.
  - When a pair of groups shares at least two coinciding atom pairs, and one continues the
    other, the pair is fused into a four-atom chain. The absorbed group is marked dead
    (`nline == 0`).
  - Any other overlap is fatal.
- `ParamEdit` (`paramedit.dfy`): the parameter-list editor (`delete_params`).
  - The matching rules are per kind, with the `-1` wildcard.
  - Bonds and angles lose only their first match. Dihedrals lose every match.
  - It is written as a pure filter. The in-place compacting loops of the C code are methods
    proved equal to it.
- `Reducer` (`reducer.dfy`): the rigid-group reducer (`calc_vsite2parm`).
  - It computes the mass algebra over `real`.
  - It rewrites the masses and appends one mass particle with its coordinate.
  - It appends one constraint and `nline - 1` two-particle virtual sites.
- `Driver` (`driver.dfy`): the generation pass (`gentop_vsite_generate_special`). It sequences
  the passes above, resets the exclusion lists and emits one improper dihedral per planar
  group.

`Topology` (`topology.dfy`) holds the state being rewritten: atoms, coordinates, the bonded
parameter lists and the exclusion lists. `Outcomes` (`outcomes.dfy`) holds the `Result` type.
Every `gmx_fatal` becomes a `Failure`.

Modelling choices:

- Generation modes are the integers `No = 0`, `Linear = 1`, `Planar = 2`, `All = 3`, and
  `Nr = 4` as the bound. The header that defines them is not part of this model, and only
  their order matters to the clamp.
- Fields that registration leaves unwritten are the value `Unset = -1`. These are `nline` and
  `a[3]` of a new linear group. The merge pass overwrites `nline` before anything reads it,
  and `a[3]` is only read when `nline == 4`.
- Parameter entries have four atom slots. Entries the generator creates list only the force
  constants they set (`C0`); the rest are zero.
- Exclusion slots that a resize adds are modelled as empty lists. The C code leaves them
  uninitialised.
- Vector length (`norm`) and the atom type id of the new particles are parameters.

## Model

| member | source | states |
|---|---|---|
| Registry.Init | src/alexandria/gentop_vsite.c:67-77 | the mode is kept when it is a known mode and falls back to `No` otherwise; both group lists start empty |
| Registry.AddLinear | src/alexandria/gentop_vsite.c:87-107 | registration is a no-op when a stored group passes the duplicate test; otherwise exactly one group is appended at the end, with the three atoms in the given order |
| Registry.AddLinearRegisters | src/alexandria/gentop_vsite.c:87-107 | after registration the triple is always recognised as a duplicate |
| Registry.AddLinearIdempotent | src/alexandria/gentop_vsite.c:87-107 | registering the same triple twice equals registering it once |
| Registry.ReversedLinearStoredTwice | src/alexandria/gentop_vsite.c:95-96 | registering `(ai,aj,ak)` and then `(ak,aj,ai)` into an empty registry stores two groups whenever `ai` differs from `aj` and `ak` |
| Registry.DegenerateLinearAbsorbs | src/alexandria/gentop_vsite.c:93-97 | a stored `(aj,aj,ai)` makes every triple `(ai,aj,*)` a duplicate |
| Registry.AddLinearIntended | src/alexandria/gentop_vsite.c:87-107 | registration with the reversed comparison corrected: no-op on a forward or reversed duplicate, otherwise one append |
| Registry.ReversedLinearIntendedStoredOnce | src/alexandria/gentop_vsite.c:95-96 | with the corrected test, a triple followed by its reverse leaves the registry as the triple alone does |
| Registry.AddPlanar | src/alexandria/gentop_vsite.c:109-131 | no-op on an exact or fully reversed duplicate; otherwise one group is appended whose bond counts are `nb[j] == nbonds[a[j]]` |
| Registry.AddPlanarIdempotent | src/alexandria/gentop_vsite.c:113-121 | re-registering a quadruple, forwards or reversed and with any bond counts, changes nothing, so the first snapshot is kept |
| ParamEdit.RemoveFirst | src/alexandria/gentop_vsite.c:139-165 | bond and angle deletion: without a match the list is unchanged; otherwise exactly the first matching entry is cut out and the rest stay in order; the length drops by one iff a match exists |
| ParamEdit.DeleteFirstInPlace | src/alexandria/gentop_vsite.c:201-230 | the C code's scan-and-shift loop computes exactly `RemoveFirst` |
| ParamEdit.KeepMembers | src/alexandria/gentop_vsite.c:169-199 | an entry survives the filter iff it was in the list and is not dropped |
| ParamEdit.KeepSubsequence | src/alexandria/gentop_vsite.c:187-198 | the survivors of a filter are a subsequence of the list, so their relative order is kept |
| ParamEdit.KeepAppend | src/alexandria/gentop_vsite.c:169-199 | filtering distributes over concatenation |
| ParamEdit.KeepIdempotent | src/alexandria/gentop_vsite.c:166-200 | deleting the same dihedral pattern twice equals deleting it once |
| ParamEdit.RemoveAllLength | src/alexandria/gentop_vsite.c:166-200 | dihedral deletion shortens the list by exactly the number of matching entries |
| ParamEdit.DeleteAllInPlace | src/alexandria/gentop_vsite.c:166-200 | the C code's compacting loop, which re-examines the shifted-in entry, computes exactly the filter that drops every match |
| ParamEdit.DeleteParams | src/alexandria/gentop_vsite.c:133-234 | only the named list changes; bonds and angles lose their first match; the dihedral lists lose exactly their matching entries (`Stripped`): a dihedral survives iff it was present and matches none of the forward, reversed and wildcard-shifted rules, the survivors keep their order, and the length drops by exactly the number of matches, so every survivor keeps its multiplicity; other kinds are left untouched |
| ParamEdit.RemoveFirstMembers | src/alexandria/gentop_vsite.c:201-230 | first-match deletion adds no entry, never removes an entry that does not match the pattern, and leaves a subsequence, so the survivors keep their order |
| ParamEdit.CountPositive | src/alexandria/gentop_vsite.c:201-230 | a list holds an entry matching the pattern iff its count of matches is positive |
| ParamEdit.CountRemoveFirst | src/alexandria/gentop_vsite.c:201-230 | removing the first match of `p` lowers the count of any pattern `q` by exactly the contribution of the removed entry |
| ParamEdit.CountRemoveFirstSame | src/alexandria/gentop_vsite.c:201-230 | the pattern's own count drops by one when it had a match and stays zero otherwise |
| ParamEdit.CountRemoveFirstOther | src/alexandria/gentop_vsite.c:201-230 | the count of a pattern that no entry can match together with `p` is unchanged |
| Merge.MergePair | src/alexandria/gentop_vsite.c:356-402 | fewer than two coinciding atom pairs leaves the groups alone; if `j` continues `i`, `i` becomes `(i0,i1,i2,j2)` with four atoms and `j` dies; the mirrored case is symmetric; any other overlap is fatal; no other group changes |
| Merge.DeadGroupIgnored | src/alexandria/gentop_vsite.c:357-371 | a dead group coincides with nothing, so it never merges |
| Merge.MergeRow | src/alexandria/gentop_vsite.c:354-415 | the inner loop keeps group sizes in {0,3,4}, keeps every group's first three atoms and leaves dead groups dead; its only failure is the ordering error |
| Merge.MergeFrom | src/alexandria/gentop_vsite.c:352-416 | the same facts hold for the whole double loop |
| Merge.Check | src/alexandria/gentop_vsite.c:345-417 | after the pass every group has 0, 3 or 4 atoms and keeps its first three atoms; the only failure is the ordering error |
| Merge.CheckWithin | src/alexandria/gentop_vsite.c:385-396 | if every registered atom lies in the atom table, so does every atom of every merged chain, including the fourth atoms merges copy in |
| Merge.MergeTwoTriples | src/alexandria/gentop_vsite.c:385-398 | unless `a == c` and `b == d`, triples `(a,b,c)` and `(b,c,d)` fuse into the chain `(a,b,c,d)` in either registration order, and the later or earlier group dies accordingly |
| Merge.RemergeOverwritesFourthAtom | src/alexandria/gentop_vsite.c:385-390 | `(0,1,2)`, `(1,2,3)`, `(1,2,4)` give the chain `(0,1,2,4)`: the second merge overwrites the fourth atom written by the first |
| Merge.ReversedOverlapIsFatal | src/alexandria/gentop_vsite.c:399-402 | `(0,1,2)` and `(2,1,5)` share two atoms in neither chain orientation, so the pass aborts |
| Merge.ReversedDuplicateAborts | src/alexandria/gentop_vsite.c:87-107 | registering `(0,1,2)` and then `(2,1,0)` stores both, and the merge pass then aborts with the ordering error |
| Merge.ReversedDuplicateIntendedPasses | src/alexandria/gentop_vsite.c:87-107 | with the corrected duplicate test, `(0,1,2)` then `(2,1,0)` stores one group and the merge pass leaves it a triple |
| Reducer.ChainOf | src/alexandria/gentop_vsite.c:251-268 | the chain's masses are the masses of its atoms; `rB` is the distance from atom 0 to atom 1, and each further arc length adds the distance between consecutive chain atoms; a triple has no fourth mass and no fourth arc |
| Reducer.Solve | src/alexandria/gentop_vsite.c:269-283 | `mT` is the total mass, `com * mT` the first moment about atom 0, `mV * rVV == com * mT`, and the new anchor mass plus `mV` equals `mJ + mK + mL` |
| Reducer.SecondMomentKept | src/alexandria/gentop_vsite.c:276-279 | the particle of mass `mV` at `rVV` also carries the chain's second moment about atom 0 |
| Reducer.Reduce | src/alexandria/gentop_vsite.c:248-342 | a dead group changes nothing; a live group fails iff the anchor mass is not positive, with that mass in the error; otherwise exactly the shape `Reshaped` describes, and the masses and new particle `NewParticle` describes: masses rewritten as `RewriteMasses` states, the new atom of mass `mV` with atomic number 0 and the new type, and `mV` times its coordinate equal to `mJ * x_J + mK * x_K` |
| Reducer.ReduceLive | src/alexandria/gentop_vsite.c:286-342 | one atom and one coordinate appended with the old coordinates kept; constraint `(a[0], new, rVV)` appended; `nline - 1` virtual sites `(a[i], a[0], new)` appended in order with `C0 * rVV` equal to atom `i`'s arc length; every other list and the exclusions are unchanged; the masses and new particle are as `NewParticle` states |
| Reducer.RewriteMasses | src/alexandria/gentop_vsite.c:301-307 | chain atoms 1 and 2 become massless in both states; the anchor gets the new anchor mass unless it coincides with atom 1 or 2, in which case the later zero wins; every other atom, a fourth chain atom included, is unchanged |
| Reducer.VsiteRecords | src/alexandria/gentop_vsite.c:333-342 | one record per chain atom after the anchor, in chain order, built from the anchor and the new atom, with `C0 * rVV` equal to that atom's arc length |
| Reducer.SitesOfRecords | src/alexandria/gentop_vsite.c:333-342 | appending these records to a list keeps the old entries as a prefix and adds exactly the chain's sites after them |
| Reducer.ReduceMasses | src/alexandria/gentop_vsite.c:283-324 | the anchor gets mass `mJ + mK + mL - mV` > 0 in both states; chain atoms 1 and 2 become massless; the new atom gets `mV`, atomic number 0 and the new type; every other atom, including a fourth chain atom, is unchanged |
| Reducer.ReduceCoordinate | src/alexandria/gentop_vsite.c:295-299 | the new particle's coordinate times `mV` equals `mJ * x_J + mK * x_K` |
| Reducer.NewCoordinateWeights | src/alexandria/gentop_vsite.c:296-299 | the accumulated coordinate times any non-zero `mV` is the mass-weighted sum of the coordinates of chain atoms 1 and 2 |
| Reducer.ReduceTotalMass | src/alexandria/gentop_vsite.c:283-314 | with three distinct leading atoms, the total mass changes by `mL - mI`, so it is not conserved |
| Driver.PadPattern | src/alexandria/gentop_vsite.c:448-451 | the deletion pattern holds the group's atoms followed by wildcards |
| Driver.StripAngles | src/alexandria/gentop_vsite.c:452-454 | angles lose the first angle matching the pattern; both dihedral lists lose exactly their entries matching the pattern, survivors in order and with their multiplicity; bonds, impropers, constraints and virtual sites are untouched |
| Driver.DeleteChainBonds | src/alexandria/gentop_vsite.c:459-464 | only the bond list changes; no bond is added, every bond that lies on no chain link survives, the survivors keep their order, at most one bond per chain link is lost, and when some link has a matching bond the list gets shorter |
| Driver.ChainBondsKeepCount | src/alexandria/gentop_vsite.c:459-464 | the number of bonds matching a pair that is no chain link is unchanged |
| Driver.ChainBondsLinkCount | src/alexandria/gentop_vsite.c:459-464 | when the links are pairwise different atom pairs, each link's count of matching bonds drops by exactly one if it had any, so a chain bond that is present is deleted |
| Driver.FirstLinkCount | src/alexandria/gentop_vsite.c:459-464 | the first link of the loop loses exactly one matching bond when it has any, and the later links leave its count alone |
| Driver.ChainBondsCutStep | src/alexandria/gentop_vsite.c:459-464 | one iteration of the bond loop, a first-match cut followed by the later links' cuts, is a cut from that link on (`ChainBondsCut`), order included |
| Driver.ChainLinksCut | src/alexandria/gentop_vsite.c:459-464 | the whole bond loop cuts one matching bond per link (`LinksCut`) whenever the links are pairwise different atom pairs |
| Driver.StripGroup | src/alexandria/gentop_vsite.c:448-464 | the deletions for one linear group (`GroupStripped`): the first matching angle, exactly the matching dihedrals, and the chain bonds as `DeleteChainBonds` states them (survivors in order), with exactly one bond per link that has one when the links are different atom pairs; impropers, constraints and virtual sites are untouched |
| Driver.ResetExclusions | src/alexandria/gentop_vsite.c:468-474 | the table gets one list per atom; the last two atoms exclude only themselves; earlier lists are kept |
| Driver.ReduceGroup | src/alexandria/gentop_vsite.c:467-474 | a dead group leaves atoms, coordinates and every list unchanged, yet the exclusion reset runs either way; the reset keeps every earlier atom's exclusions (`Grown`); a live group fails with `NonFiniteGeometry` iff a divisor is zero and otherwise fails iff the anchor mass is not positive, with `NonPositiveMass` carrying that mass; on success (`LiveReduced`) the chain masses are rewritten as `RewriteMasses` states, and the new atom (mass `mV`, atomic number 0, the new type), its coordinate (`mV` times it equals `mJ * x_J + mK * x_K`), the constraint and the virtual sites of the reduction are appended, old coordinates kept; bonds, angles and dihedrals are not touched |
| Driver.ReduceStripped | src/alexandria/gentop_vsite.c:467-474 | the same facts, error values included, when the reduction runs on the topology with edited bonded lists, stated against the unedited topology |
| Driver.LinearStep | src/alexandria/gentop_vsite.c:446-486 | with vsite generation off the step is fatal; otherwise the bonded lists are edited as `GroupStripped` states (first matching angle, exactly the matching dihedrals, one chain bond per link that has one when the links are different atom pairs, never an off-chain bond, survivors in order); earlier exclusion lists are kept; a dead group leaves atoms, coordinates, constraints and virtual sites alone; a live group fails with `NonFiniteGeometry` iff a divisor is zero, otherwise with `NonPositiveMass` of the anchor mass iff that mass is not positive, and otherwise gets the rewritten masses, the new atom and coordinate, the constraint and the virtual sites as `LiveReduced` states; reduction failures are the only other errors |
| Driver.LinearPass | src/alexandria/gentop_vsite.c:446-487 | with vsite generation off and any group present the pass is fatal; on success the atoms and constraints grow by the number of live groups, impropers are untouched and the exclusion table matches the atom count |
| Driver.PlanarPatterns | src/alexandria/gentop_vsite.c:494-531 | two patterns per outer atom with a bond count of 1; every pattern is `a[j]-a[0]-a[k]-*` for outer atoms `j != k` with `j` having one bond, and every such pattern is present |
| Driver.DeletePatterns | src/alexandria/gentop_vsite.c:496-531 | applying the patterns edits only the two dihedral lists; `DeletePatternsFilter` states which entries survive |
| Driver.DeletePatternsFilter | src/alexandria/gentop_vsite.c:496-531 | deleting pattern after pattern equals one order-preserving filter by "matches some pattern" |
| Driver.PlanarStep | src/alexandria/gentop_vsite.c:491-538 | the improper `(a0,a1,a2,a3)` with zero constants is appended; bonds, angles, constraints and virtual sites are untouched |
| Driver.PlanarStepMembers | src/alexandria/gentop_vsite.c:494-531 | after one planar step a dihedral survives iff it was present and matches none of the group's patterns |
| Driver.PlanarPass | src/alexandria/gentop_vsite.c:489-540 | the impropers gain one entry per planar group, in registry order |
| Driver.PlanarPassFilter | src/alexandria/gentop_vsite.c:489-540 | the surviving dihedrals are those of the input, in input order, that match no pattern of any planar group |
| Driver.PlanarPassMembers | src/alexandria/gentop_vsite.c:489-540 | a dihedral survives iff it was present and matches no planar pattern |
| Driver.CentreCountIgnored | src/alexandria/gentop_vsite.c:494-498 | the bond count of the centre atom `a[0]` has no effect |
| Driver.PlanarScenario | src/alexandria/gentop_vsite.c:494-538 | group `(0,1,2,3)` with counts `{1,3,3,1}` has exactly the patterns `(3,0,1,*)` and `(3,0,2,*)` and adds the improper `(0,1,2,3)` |
| Driver.PlanarScenarioSurvivors | src/alexandria/gentop_vsite.c:494-531 | in that scenario a dihedral of either kind survives iff it was present and matches neither pattern under the forward, reversed or shifted rule |
| Driver.PlanarScenarioDeletes | src/alexandria/gentop_vsite.c:494-531 | in that scenario the reversed `9-1-0-3` and the shifted `9-3-0-1` are deleted too |
| Driver.PlanarScenarioKeeps | src/alexandria/gentop_vsite.c:494-531 | in that scenario `1-0-2-9`, which passes the centre but does not start at atom 3, survives |
| Driver.LinearPhase | src/alexandria/gentop_vsite.c:436-488 | the linear pass runs only in linear or all mode |
| Driver.PlanarPhase | src/alexandria/gentop_vsite.c:489-540 | the planar pass runs only in planar or all mode and edits parameter lists only |
| Driver.GenerateSpecial | src/alexandria/gentop_vsite.c:419-541 | the merge pass always runs and its failure aborts; with the linear pass off the atoms and coordinates are unchanged; in planar mode the impropers gain one per planar group, otherwise none; vsite generation off with any linear group in linear mode is fatal; atoms and constraints grow by the number of live groups |
| Driver.PlanarOnlySurvivors | src/alexandria/gentop_vsite.c:489-540 | in planar-only mode the surviving dihedrals are exactly the input's that match no planar pattern |

## Left out

- `src/gmxlib/fnbf.c` and `src/gromacs/options/cmdlineparser.cpp` are not part of this model. They dispatch to external floating-point kernels and parse options through classes defined outside this file.
- Diagnostic output: the `debug`, `stderr` and `stdout` printing, including the "Generating %d linear ..." count of `gentop_vsite_generate_special` and the unknown-kind message of `delete_params`. Nothing else depends on it.
- Memory management (`snew`, `srenew`, `sfree`, `gentop_vsite_done`, `add_t_atoms` internals): modelled as sequence growth.
- Symbol and type interning (`add_atomtype`, `put_symtab`): the new particle's type is the parameter `mlType`. Atom names are not modelled.
- IEEE arithmetic: masses and lengths are `real`, and the vector length `norm` is a parameter. The C code divides by `mT`, `com` and `rVV` without a guard. The model's reducer requires them non-zero, and the driver returns `NonFiniteGeometry` where C would go on with infinities or NaN.
- The atom type of the new particle in state B, and its other zeroed `t_atom` fields, are kept only as far as `Atom` records them.
- Driver.GenerateSpecial: requires, in every mode, at least two atoms and one coordinate per atom (`Shaped`). The exclusion reset writes the last two atom slots, and with fewer atoms it would index before the table; the C code avoids that only when the first group it processes is live. It also requires that the three atoms of every registered linear group index the atom table (`HeadsWithin`), because the reducer reads their masses and coordinates and the C code does not check them. Only the linear pass needs either.
- Driver.DeleteChainBonds: for a degenerate chain whose links repeat an atom pair, states only that bonds off the chain stay, that at most one bond per link goes, and that some bond goes when a link has one, not each link's exact count. `ChainBondsLinkCount` gives the exact counts when the links are different pairs. Which of several matching bonds goes is the first, as `ParamEdit.RemoveFirst` states.
- Reducer.ReduceMasses: assumes the first three chain atoms are distinct. `Reducer.RewriteMasses` states the general case, where the later writes win, as the C code's order of assignments says.

## Findings

| source | as written | input that shows it | evidently intended | confidence | as-written member | corrected member |
|---|---|---|---|---|---|---|
| src/alexandria/gentop_vsite.c:96 | the reversed-duplicate test compares the stored first atom with the new middle atom `aj` and the stored last atom with the new first atom `ai` | register `(0,1,2)`, then `(2,1,0)`: two groups are stored, and the merge pass later aborts on them | compare the stored first atom with `ak`, so a reversed triple is a duplicate | not executed | Registry.ReversedLinearStoredTwice, Merge.ReversedDuplicateAborts | Registry.AddLinearIntended, Registry.ReversedLinearIntendedStoredOnce, Merge.ReversedDuplicateIntendedPasses |

=== FILE: driver.dfy ===
/** The generation pass (`gentop_vsite_generate_special`): merges the linear
    groups, then (in linear mode) strips each linear group's angle and
    dihedral terms and reduces it to an anchor mass, a mass particle and
    virtual sites, then (in planar mode) strips the redundant dihedrals
    around each planar centre and adds one improper per planar group. */
module Driver {
  import opened Topology
  import opened Registry
  import opened Outcomes
  import opened ParamEdit
  import opened Merge
  import opened Reducer

  // ------------------------------------------------------------ linear pass

  /** The deletion pattern of a linear group: its atoms, then wildcards. */
  function PadPattern(g: LinearGroup): (p: Quad)
    requires 0 <= g.nline <= 4
    ensures forall j :: 0 <= j < g.nline ==> p[j] == g.a[j]
    ensures forall j :: g.nline <= j < 4 ==> p[j] == Wildcard
  {
    seq(4, j requires 0 <= j < 4 => if j < g.nline then g.a[j] else Wildcard)
  }

  /** Deletes the bonds along the chain, `a[j]-a[j+1]` for `j` from `from`
      to `nline - 2`, one first match each. */
  function DeleteChainBonds(pl: ParamLists, g: LinearGroup, from: nat): (r: ParamLists)
    requires g.nline <= 4
    ensures forall k :: k != Bonds ==> r.Get(k) == pl.Get(k)
    ensures ChainBondsCut(pl.bonds, r.bonds, g, from)
    decreases g.nline - from
  {
    if from + 1 >= g.nline then
      SubsequenceRefl(pl.bonds);
      pl
    else
      var p := Link(g, from);
      var pl1 := DeleteParams(pl, Bonds, p);
      assert pl1.bonds == RemoveFirst(Bonds, pl.bonds, p) by {
        assert pl1.Get(Bonds) == pl1.bonds;
      }
      var r := DeleteChainBonds(pl1, g, from + 1);
      ChainBondsCutStep(pl.bonds, pl1.bonds, r.bonds, g, from);
      r
  }

  /** One step of the bond loop: cutting the first bond of link `from` and
      then the later links' bonds is a cut from `from` on. */
  lemma ChainBondsCutStep(s: seq<Param>, s1: seq<Param>, r: seq<Param>, g: LinearGroup, from: nat)
    requires g.nline <= 4 && from + 1 < g.nline
    requires s1 == RemoveFirst(Bonds, s, Link(g, from))
    requires ChainBondsCut(s1, r, g, from + 1)
    ensures ChainBondsCut(s, r, g, from)
  {
    var p := Link(g, from);
    RemoveFirstMembers(Bonds, s, p);
    CountPositive(Bonds, s, p);
    assert CountMatches(Bonds, s, p) == 0 ==> s1 == s;
    SubsequenceTrans(r, s1, s);
  }

  /** Chain link `j`: the bond pattern `a[j]-a[j+1]`. */
  function Link(g: LinearGroup, j: int): seq<int>
    requires 0 <= j < 3
  {
    [g.a[j], g.a[j + 1]]
  }

  /** Two bond patterns name the same unordered atom pair, so exactly the
      same bonds match them. */
  predicate SamePair(p: seq<int>, q: seq<int>)
    requires |p| >= 2 && |q| >= 2
  {
    (p[0] == q[0] && p[1] == q[1]) || (p[0] == q[1] && p[1] == q[0])
  }

  /** Pattern `q` is none of the chain links from `from` on. */
  predicate ApartFrom(q: seq<int>, g: LinearGroup, from: nat)
    requires |q| >= 2 && g.nline <= 4
  {
    forall j :: from <= j < g.nline - 1 ==> !SamePair(q, Link(g, j))
  }

  /** The chain links from `from` on are pairwise different atom pairs. */
  predicate DistinctLinks(g: LinearGroup, from: nat)
    requires g.nline <= 4
  {
    forall i, j :: from <= i < j < g.nline - 1 ==> !SamePair(Link(g, i), Link(g, j))
  }

  /** The chain bond deletions leave the count of a bond pattern that is no
      chain link unchanged. */
  lemma {:induction false} ChainBondsKeepCount(pl: ParamLists, g: LinearGroup, from: nat, q: seq<int>)
    requires g.nline <= 4 && |q| == 2 && ApartFrom(q, g, from)
    ensures CountMatches(Bonds, DeleteChainBonds(pl, g, from).bonds, q) == CountMatches(Bonds, pl.bonds, q)
    decreases g.nline - from
  {
    if from + 1 < g.nline {
      var p := Link(g, from);
      var pl1 := DeleteParams(pl, Bonds, p);
      assert pl1.bonds == RemoveFirst(Bonds, pl.bonds, p) by {
        assert pl1.Get(Bonds) == pl1.bonds;
      }
      assert !SamePair(q, p);
      CountRemoveFirstOther(Bonds, pl.bonds, p, q);
      ChainBondsKeepCount(pl1, g, from + 1, q);
    }
  }

  /** With pairwise different links, each link from `from` on loses exactly
      one of its bonds when it has any: a chain bond that is present is
      deleted. */
  lemma {:induction false} ChainBondsLinkCount(pl: ParamLists, g: LinearGroup, from: nat, j: nat)
    requires g.nline <= 4 && DistinctLinks(g, from) && from <= j < g.nline - 1
    ensures CountMatches(Bonds, DeleteChainBonds(pl, g, from).bonds, Link(g, j)) ==
            OneFewer(CountMatches(Bonds, pl.bonds, Link(g, j)))
    decreases g.nline - from
  {
    if j == from {
      FirstLinkCount(pl, g, from);
    } else {
      var p := Link(g, from);
      var pl1 := DeleteParams(pl, Bonds, p);
      assert pl1.bonds == RemoveFirst(Bonds, pl.bonds, p) by {
        assert pl1.Get(Bonds) == pl1.bonds;
      }
      assert !SamePair(p, Link(g, j));
      CountRemoveFirstOther(Bonds, pl.bonds, p, Link(g, j));
      ChainBondsLinkCount(pl1, g, from + 1, j);
    }
  }

  /** The first link's share: its first bond goes, and the later links,
      being other atom pairs, leave its remaining bonds alone. */
  lemma FirstLinkCount(pl: ParamLists, g: LinearGroup, from: nat)
    requires g.nline <= 4 && DistinctLinks(g, from) && from + 1 < g.nline
    ensures CountMatches(Bonds, DeleteChainBonds(pl, g, from).bonds, Link(g, from)) ==
            OneFewer(CountMatches(Bonds, pl.bonds, Link(g, from)))
  {
    var p := Link(g, from);
    var pl1 := DeleteParams(pl, Bonds, p);
    assert pl1.bonds == RemoveFirst(Bonds, pl.bonds, p) by {
      assert pl1.Get(Bonds) == pl1.bonds;
    }
    CountRemoveFirstSame(Bonds, pl.bonds, p);
    ChainBondsKeepCount(pl1, g, from + 1, p);
  }

  /** With pairwise different links, every link loses one matching bond
      when it has one. */
  predicate LinksCut(s: seq<Param>, r: seq<Param>, g: LinearGroup)
    requires g.nline <= 4
  {
    DistinctLinks(g, 0) ==>
      forall j :: 0 <= j < g.nline - 1 ==>
        CountMatches(Bonds, r, Link(g, j)) == OneFewer(CountMatches(Bonds, s, Link(g, j)))
  }

  lemma ChainLinksCut(pl: ParamLists, g: LinearGroup)
    requires g.nline <= 4
    ensures LinksCut(pl.bonds, DeleteChainBonds(pl, g, 0).bonds, g)
  {
    if DistinctLinks(g, 0) {
      forall j | 0 <= j < g.nline - 1
        ensures CountMatches(Bonds, DeleteChainBonds(pl, g, 0).bonds, Link(g, j)) ==
                OneFewer(CountMatches(Bonds, pl.bonds, Link(g, j)))
      {
        ChainBondsLinkCount(pl, g, 0, j);
      }
    }
  }

  /** The bond `e` lies along the chain: it joins `a[j]` and `a[j+1]`, in
      either order, for some `j` from `from` to `nline - 2`. */
  predicate OnChain(e: Param, g: LinearGroup, from: nat)
    requires g.nline <= 4
    decreases g.nline - from
  {
    from + 1 < g.nline && (BondMatch(e, [g.a[from], g.a[from + 1]]) || OnChain(e, g, from + 1))
  }

  /** Bond list `r` is `s` after the chain links from `from` on each took
      out at most one bond: no bond is new, every bond off the chain
      survives, the survivors keep their order, at most one bond per link
      is gone, and if any link has a bond, some bond is gone. */
  ghost predicate ChainBondsCut(s: seq<Param>, r: seq<Param>, g: LinearGroup, from: nat)
    requires g.nline <= 4
  {
    && (forall e :: e in r ==> e in s)
    && (forall e :: e in s && !OnChain(e, g, from) ==> e in r)
    && IsSubsequence(r, s)
    && |s| - (if g.nline - 1 > from then g.nline - 1 - from else 0) <= |r| <= |s|
    && ((exists j :: from <= j < g.nline - 1 && CountMatches(Bonds, s, Link(g, j)) > 0) ==> |r| < |s|)
  }

  /** Grows or shrinks the exclusion table to `n` atoms; new slots are empty. */
  function Resize(excls: seq<seq<int>>, n: nat): (r: seq<seq<int>>)
    ensures |r| == n
    ensures forall i :: 0 <= i < n && i < |excls| ==> r[i] == excls[i]
    ensures forall i :: |excls| <= i < n ==> r[i] == []
  {
    seq(n, i requires 0 <= i < n => if i < |excls| then excls[i] else [])
  }

  /** The exclusion reset after each reduction: the table is sized to the
      atom count and the last two atoms exclude only themselves. */
  function ResetExclusions(excls: seq<seq<int>>, n: nat): (r: seq<seq<int>>)
    requires n >= 2
    ensures |r| == n
    ensures r[n - 2] == [n - 2] && r[n - 1] == [n - 1]
    ensures forall i :: 0 <= i < n - 2 && i < |excls| ==> r[i] == excls[i]
    ensures forall i :: |excls| <= i < n - 2 ==> r[i] == []
  {
    Resize(excls, n)[n - 2 := [n - 2]][n - 1 := [n - 1]]
  }

  /** The topology facts the linear pass relies on. */
  predicate Shaped(t: Topology) {
    |t.x| == |t.atoms| && |t.atoms| >= 2
  }

  /** The angle and dihedral deletions every linear group gets first. */
  function StripAngles(pl: ParamLists, g: LinearGroup): (r: ParamLists)
    requires 0 <= g.nline <= 4
    ensures r.bonds == pl.bonds && r.idihs == pl.idihs
    ensures r.constr == pl.constr && r.vsite2 == pl.vsite2
    ensures r.angles == RemoveFirst(Angles, pl.angles, PadPattern(g))
    ensures Stripped(RBDihs, pl.rbdihs, r.rbdihs, PadPattern(g))
    ensures Stripped(PDihs, pl.pdihs, r.pdihs, PadPattern(g))
  {
    var p := PadPattern(g);
    var p1 := DeleteParams(pl, Angles, p);
    var p2 := DeleteParams(p1, RBDihs, p);
    var p3 := DeleteParams(p2, PDihs, p);
    assert p3.Get(Angles) == p2.Get(Angles) == p1.Get(Angles);
    assert p3.Get(RBDihs) == p2.Get(RBDihs) && p1.Get(RBDihs) == pl.Get(RBDihs);
    assert p2.Get(PDihs) == p1.Get(PDihs) == pl.Get(PDihs);
    p3
  }

  /** One exclusion list per atom, the last two atoms excluding only themselves. */
  predicate ExclsReset(t: Topology) {
    var n := |t.atoms|;
    n >= 2 && |t.excls| == n && t.excls[n - 2] == [n - 2] && t.excls[n - 1] == [n - 1]
  }

  /** Facts about a step's result shared by the reduction and the loop. */
  predicate Grown(t: Topology, r: Topology, g: LinearGroup) {
    && Shaped(r)
    && |r.atoms| == |t.atoms| + (if g.nline > 0 then 1 else 0)
    && ExclsReset(r)
    && (forall i :: 0 <= i < |r.atoms| - 2 && i < |t.excls| ==> r.excls[i] == t.excls[i])
    && r.plist.idihs == t.plist.idihs
    && |r.plist.constr| == |t.plist.constr| + (if g.nline > 0 then 1 else 0)
    && |r.plist.vsite2| == |t.plist.vsite2| + (if g.nline > 0 then g.nline - 1 else 0)
  }

  /** `r` is live group `g` of `t` reduced: the chain's geometry leaves no
      divisor zero, the chain's masses are rewritten, and the particle,
      constraint and virtual sites of the solution are appended. */
  predicate LiveReduced(t: Topology, r: Topology, g: LinearGroup, norm: Vec3 -> real, mlType: int)
    requires Indexed(t, g) && 0 < g.nline
  {
    var c := ChainOf(t, g, norm);
    Solvable(c) && Appended(t, r, g, c, Solve(c).rVV) && NewParticle(t, r, g, Solve(c), mlType)
  }

  /** The bond, angle and dihedral lists are the same. */
  predicate BondedKept(p: ParamLists, q: ParamLists) {
    q.bonds == p.bonds && q.angles == p.angles && q.rbdihs == p.rbdihs && q.pdihs == p.pdihs
  }

  /** The reduction of one group, with the exclusion reset that follows it
      whether or not the group was alive. A dead group changes nothing but
      the exclusions; a live one fails exactly when its geometry leaves a
      divisor zero or its anchor mass is not positive, and otherwise gets
      the particle, constraint and virtual sites of the reduction. */
  function ReduceGroup(t: Topology, g: LinearGroup, norm: Vec3 -> real, mlType: int): (r: Result<Topology>)
    requires Shaped(t) && ValidLine(g) && Indexed(t, g)
    ensures r.Success? ==> Grown(t, r.value, g)
    ensures r.Success? ==> BondedKept(t.plist, r.value.plist)
    ensures r.Failure? ==> r.error.NonPositiveMass? || r.error == NonFiniteGeometry
    ensures g.nline == 0 ==> r.Success? && r.value.atoms == t.atoms && r.value.x == t.x && r.value.plist == t.plist
    ensures g.nline > 0 && !Solvable(ChainOf(t, g, norm)) ==> r == Failure(NonFiniteGeometry)
    ensures g.nline > 0 && Solvable(ChainOf(t, g, norm)) ==>
              (r.Failure? <==> Solve(ChainOf(t, g, norm)).anchor <= 0.0)
    ensures g.nline > 0 && Solvable(ChainOf(t, g, norm)) && r.Failure? ==>
              r.error == NonPositiveMass(Solve(ChainOf(t, g, norm)).anchor)
    ensures g.nline > 0 && r.Success? ==> LiveReduced(t, r.value, g, norm, mlType)
  {
    if g.nline > 0 && !Solvable(ChainOf(t, g, norm)) then Failure(NonFiniteGeometry)
    else
      var t2 :- Reduce(t, g, norm, mlType);
      assert t2.plist.Get(IDihs) == t.plist.Get(IDihs);
      assert t2.plist.Get(Bonds) == t.plist.Get(Bonds) && t2.plist.Get(Angles) == t.plist.Get(Angles);
      assert t2.plist.Get(RBDihs) == t.plist.Get(RBDihs) && t2.plist.Get(PDihs) == t.plist.Get(PDihs);
      assert t2.excls == t.excls;
      Success(ResetAfter(t2))
  }

  /** `t` with its exclusion lists reset for its last two atoms. */
  function ResetAfter(t: Topology): (r: Topology)
    requires |t.atoms| >= 2
    ensures r.atoms == t.atoms && r.x == t.x && r.plist == t.plist && ExclsReset(r)
    ensures forall i :: 0 <= i < |r.atoms| - 2 && i < |t.excls| ==> r.excls[i] == t.excls[i]
  {
    t.(excls := ResetExclusions(t.excls, |t.atoms|))
  }

  /** One iteration of the linear loop for group `g`: the group's angle,
      dihedrals and chain bonds are deleted, then the group is reduced. */
  function LinearStep(t: Topology, g: LinearGroup, genVsites: bool, norm: Vec3 -> real, mlType: int)
    : (r: Result<Topology>)
    requires Shaped(t) && ValidLine(g) && Indexed(t, g)
    ensures !genVsites ==> r == Failure(LinearAnglesUnimplemented)
    ensures r.Success? ==> Grown(t, r.value, g)
    ensures r.Success? ==> GroupStripped(t.plist, r.value.plist, g)
    ensures r.Success? && g.nline == 0 ==> Untouched(t, r.value)
    ensures genVsites && g.nline > 0 && Solvable(ChainOf(t, g, norm)) ==>
              (r.Failure? <==> Solve(ChainOf(t, g, norm)).anchor <= 0.0)
    ensures genVsites && g.nline > 0 && Solvable(ChainOf(t, g, norm)) && r.Failure? ==>
              r.error == NonPositiveMass(Solve(ChainOf(t, g, norm)).anchor)
    ensures genVsites && g.nline > 0 && !Solvable(ChainOf(t, g, norm)) ==> r == Failure(NonFiniteGeometry)
    ensures r.Success? && g.nline > 0 ==> LiveReduced(t, r.value, g, norm, mlType)
    ensures r.Failure? && genVsites ==> r.error.NonPositiveMass? || r.error == NonFiniteGeometry
  {
    if !genVsites then Failure(LinearAnglesUnimplemented)
    else ReduceStripped(t, StripGroup(t.plist, g), g, norm, mlType)
  }

  /** Atoms, coordinates, constraints and virtual sites are those of `t`. */
  predicate Untouched(t: Topology, r: Topology) {
    r.atoms == t.atoms && r.x == t.x && r.plist.constr == t.plist.constr && r.plist.vsite2 == t.plist.vsite2
  }

  /** The reduction of group `g` of `t` once its bonded lists are `pl`. */
  function ReduceStripped(t: Topology, pl: ParamLists, g: LinearGroup, norm: Vec3 -> real, mlType: int)
    : (r: Result<Topology>)
    requires Shaped(t) && ValidLine(g) && Indexed(t, g)
    requires pl.idihs == t.plist.idihs && pl.constr == t.plist.constr && pl.vsite2 == t.plist.vsite2
    ensures r.Success? ==> Grown(t, r.value, g) && BondedKept(pl, r.value.plist)
    ensures r.Success? && g.nline == 0 ==> Untouched(t, r.value)
    ensures g.nline > 0 && Solvable(ChainOf(t, g, norm)) ==>
              (r.Failure? <==> Solve(ChainOf(t, g, norm)).anchor <= 0.0)
    ensures g.nline > 0 && Solvable(ChainOf(t, g, norm)) && r.Failure? ==>
              r.error == NonPositiveMass(Solve(ChainOf(t, g, norm)).anchor)
    ensures g.nline > 0 && !Solvable(ChainOf(t, g, norm)) ==> r == Failure(NonFiniteGeometry)
    ensures r.Success? && g.nline > 0 ==> LiveReduced(t, r.value, g, norm, mlType)
    ensures r.Failure? ==> r.error.NonPositiveMass? || r.error == NonFiniteGeometry
  {
    var t' := t.(plist := pl);
    assert g.nline > 0 ==> ChainOf(t', g, norm) == ChainOf(t, g, norm);
    ReduceGroup(t', g, norm, mlType)
  }

  /** The deletions of one linear group: its angle, its dihedrals and the
      bonds along its chain. */
  function StripGroup(pl: ParamLists, g: LinearGroup): (r: ParamLists)
    requires 0 <= g.nline <= 4
    ensures GroupStripped(pl, r, g)
    ensures r.idihs == pl.idihs && r.constr == pl.constr && r.vsite2 == pl.vsite2
  {
    var ps := StripAngles(pl, g);
    var r := DeleteChainBonds(ps, g, 0);
    ChainLinksCut(ps, g);
    assert r.Get(IDihs) == pl.idihs && r.Get(Constr) == pl.constr && r.Get(VSite2) == pl.vsite2;
    assert r.Get(Angles) == ps.angles && r.Get(RBDihs) == ps.rbdihs && r.Get(PDihs) == ps.pdihs;
    r
  }

  /** Bond, angle and dihedral list of `q` are those of `p` after the
      deletions for linear group `g`: the first angle matching the group,
      every dihedral matching it, and at most one bond per chain link. */
  ghost predicate GroupStripped(p: ParamLists, q: ParamLists, g: LinearGroup)
    requires 0 <= g.nline <= 4
  {
    && q.angles == RemoveFirst(Angles, p.angles, PadPattern(g))
    && Stripped(RBDihs, p.rbdihs, q.rbdihs, PadPattern(g))
    && Stripped(PDihs, p.pdihs, q.pdihs, PadPattern(g))
    && ChainBondsCut(p.bonds, q.bonds, g, 0)
    && LinksCut(p.bonds, q.bonds, g)
  }

  /** Linear groups that are still alive after the merge pass. */
  function LiveCount(lin: seq<LinearGroup>): nat {
    if |lin| == 0 then 0 else LiveCount(lin[..|lin| - 1]) + (if lin[|lin| - 1].nline > 0 then 1 else 0)
  }

  /** Groups `lin[..]` processed in order. */
  function LinearPass(t: Topology, lin: seq<LinearGroup>, genVsites: bool, norm: Vec3 -> real, mlType: int)
    : (r: Result<Topology>)
    requires Shaped(t) && AllValid(lin) && AtomsWithin(lin, |t.atoms|)
    ensures lin != [] && !genVsites ==> r == Failure(LinearAnglesUnimplemented)
    ensures lin == [] ==> r == Success(t)
    ensures r.Success? ==>
              && Shaped(r.value)
              && |r.value.atoms| == |t.atoms| + LiveCount(lin)
              && r.value.plist.idihs == t.plist.idihs
              && |r.value.plist.constr| == |t.plist.constr| + LiveCount(lin)
    ensures r.Success? && lin != [] ==> ExclsReset(r.value)
    decreases |lin|
  {
    if |lin| == 0 then Success(t)
    else
      var front := lin[..|lin| - 1];
      WithinSplit(lin, |t.atoms|);
      var t1 :- LinearPass(t, front, genVsites, norm, mlType);
      var g := lin[|lin| - 1];
      WithinGrow([g], |t.atoms|, |t1.atoms|);
      assert Indexed(t1, g) by {
        assert [g][0] == g;
      }
      assert LiveCount(lin) == LiveCount(front) + (if g.nline > 0 then 1 else 0);
      LinearStep(t1, g, genVsites, norm, mlType)
  }

  lemma WithinSplit(lin: seq<LinearGroup>, n: int)
    requires |lin| > 0 && AllValid(lin) && AtomsWithin(lin, n)
    ensures AllValid(lin[..|lin| - 1]) && AtomsWithin(lin[..|lin| - 1], n)
    ensures ValidLine(lin[|lin| - 1]) && AtomsWithin([lin[|lin| - 1]], n)
  {
  }

  lemma WithinGrow(lin: seq<LinearGroup>, n: int, n': int)
    requires AtomsWithin(lin, n) && n <= n'
    ensures AtomsWithin(lin, n')
  {
  }

  // ------------------------------------------------------------ planar pass

  /** The dihedral pattern `a[j]-a[0]-a[k]-*` of planar group `g`: outer
      atom `j`, the centre, outer atom `k`, any fourth atom. */
  function AroundCentre(g: PlanarGroup, j: int, k: int): Quad
    requires 0 <= j < 4 && 0 <= k < 4
  {
    [g.a[j], g.a[0], g.a[k], Wildcard]
  }

  /** The planar deletion patterns of group `g`, in the order the C code
      applies them: for each outer atom `j` in 1..3 with exactly one bond,
      the patterns `a[j]-a[0]-a[k]-*` for the two other outer atoms `k`.
      Every pattern is of that form, and every such pattern is there. */
  function PlanarPatterns(g: PlanarGroup): (ps: seq<Quad>)
    ensures |ps| == 2 * ((if g.nb[1] == 1 then 1 else 0) + (if g.nb[2] == 1 then 1 else 0) +
                         (if g.nb[3] == 1 then 1 else 0))
    ensures forall i :: 0 <= i < |ps| ==> ps[i][1] == g.a[0] && ps[i][3] == Wildcard
    ensures forall i :: 0 <= i < |ps| ==>
              exists j, k :: 1 <= j <= 3 && 1 <= k <= 3 && j != k && g.nb[j] == 1 && ps[i] == AroundCentre(g, j, k)
    ensures forall j, k :: 1 <= j <= 3 && 1 <= k <= 3 && j != k && g.nb[j] == 1 ==> AroundCentre(g, j, k) in ps
  {
    (if g.nb[1] == 1 then [AroundCentre(g, 1, 2), AroundCentre(g, 1, 3)] else []) +
    (if g.nb[2] == 1 then [AroundCentre(g, 2, 1), AroundCentre(g, 2, 3)] else []) +
    (if g.nb[3] == 1 then [AroundCentre(g, 3, 1), AroundCentre(g, 3, 2)] else [])
  }

  /** Deletes every Ryckaert-Bellemans and then every proper dihedral
      matching each pattern in turn. */
  function DeletePatterns(pl: ParamLists, ps: seq<Quad>): (r: ParamLists)
    ensures DihedralsOnly(pl, r)
    decreases |ps|
  {
    if |ps| == 0 then pl
    else
      var p1 := DeleteParams(pl, RBDihs, ps[0]);
      var p2 := DeleteParams(p1, PDihs, ps[0]);
      assert DihedralsOnly(pl, p2) by {
        assert p2.Get(Bonds) == p1.Get(Bonds) == pl.Get(Bonds);
        assert p2.Get(Angles) == p1.Get(Angles) == pl.Get(Angles);
        assert p2.Get(IDihs) == p1.Get(IDihs) == pl.Get(IDihs);
        assert p2.Get(Constr) == p1.Get(Constr) == pl.Get(Constr);
        assert p2.Get(VSite2) == p1.Get(VSite2) == pl.Get(VSite2);
      }
      DeletePatterns(p2, ps[1..])
  }

  /** Only the proper and Ryckaert-Bellemans dihedral lists differ. */
  predicate DihedralsOnly(pl: ParamLists, r: ParamLists) {
    && r.bonds == pl.bonds && r.angles == pl.angles && r.idihs == pl.idihs
    && r.constr == pl.constr && r.vsite2 == pl.vsite2
  }

  /** The entry matches at least one of the patterns. */
  predicate MatchesAny(k: Kind, e: Param, ps: seq<Quad>)
    decreases |ps|
  {
    |ps| > 0 && (Matches(k, e, ps[0]) || MatchesAny(k, e, ps[1..]))
  }

  function AnyMatcher(k: Kind, ps: seq<Quad>): Param -> bool {
    e => MatchesAny(k, e, ps)
  }

  /** Deleting pattern after pattern is one filter by "matches any pattern":
      the survivors are the entries that match none, in their old order. */
  lemma {:induction false} DeletePatternsFilter(pl: ParamLists, ps: seq<Quad>, k: Kind)
    requires k == RBDihs || k == PDihs
    ensures DeletePatterns(pl, ps).Get(k) == Keep(pl.Get(k), AnyMatcher(k, ps))
    decreases |ps|
  {
    if |ps| == 0 {
      KeepNothing(pl.Get(k), AnyMatcher(k, ps));
    } else {
      var pl1 := DeleteParams(DeleteParams(pl, RBDihs, ps[0]), PDihs, ps[0]);
      assert pl1.Get(k) == Keep(pl.Get(k), Matcher(k, ps[0]));
      DeletePatternsFilter(pl1, ps[1..], k);
      KeepTwice(pl.Get(k), Matcher(k, ps[0]), AnyMatcher(k, ps[1..]), AnyMatcher(k, ps));
    }
  }

  /** A filter that drops nothing keeps everything. */
  lemma {:induction false} KeepNothing(s: seq<Param>, drop: Param -> bool)
    requires forall e :: !drop(e)
    ensures Keep(s, drop) == s
    decreases |s|
  {
    if |s| > 0 {
      KeepNothing(s[1..], drop);
    }
  }

  /** The improper a planar group adds: its four atoms, constants zero. */
  function Improper(g: PlanarGroup): Param {
    Param(g.a, [])
  }

  /** One iteration of the planar loop for group `g`. */
  function PlanarStep(pl: ParamLists, g: PlanarGroup): (r: ParamLists)
    ensures r.idihs == pl.idihs + [Improper(g)]
    ensures r.bonds == pl.bonds && r.angles == pl.angles
    ensures r.constr == pl.constr && r.vsite2 == pl.vsite2
  {
    var d := DeletePatterns(pl, PlanarPatterns(g));
    d.(idihs := d.idihs + [Improper(g)])
  }

  function Impropers(plan: seq<PlanarGroup>): (r: seq<Param>)
    ensures |r| == |plan|
    ensures forall i :: 0 <= i < |plan| ==> r[i] == Improper(plan[i])
  {
    seq(|plan|, i requires 0 <= i < |plan| => Improper(plan[i]))
  }

  /** All planar patterns of `plan`, group by group. */
  function AllPatterns(plan: seq<PlanarGroup>): seq<Quad>
    decreases |plan|
  {
    if |plan| == 0 then [] else PlanarPatterns(plan[0]) + AllPatterns(plan[1..])
  }

  /** Groups `plan[..]` processed in order. */
  function PlanarPass(pl: ParamLists, plan: seq<PlanarGroup>): (r: ParamLists)
    ensures r.idihs == pl.idihs + Impropers(plan)
    ensures r.bonds == pl.bonds && r.angles == pl.angles
    ensures r.constr == pl.constr && r.vsite2 == pl.vsite2
    decreases |plan|
  {
    if |plan| == 0 then pl
    else
      var pl1 := PlanarStep(pl, plan[0]);
      var r := PlanarPass(pl1, plan[1..]);
      ImpropersCons(plan);
      assert pl.idihs + [Improper(plan[0])] + Impropers(plan[1..]) ==
             pl.idihs + ([Improper(plan[0])] + Impropers(plan[1..]));
      r
  }

  lemma ImpropersCons(plan: seq<PlanarGroup>)
    requires |plan| > 0
    ensures Impropers(plan) == [Improper(plan[0])] + Impropers(plan[1..])
  {
    var u := [Improper(plan[0])] + Impropers(plan[1..]);
    assert forall i :: 0 <= i < |plan| ==> u[i] == Improper(plan[i]);
  }

  /** "Matches one of `ps + qs`" is "matches one of `ps` or one of `qs`". */
  lemma {:induction false} MatchesAnyAppend(k: Kind, e: Param, ps: seq<Quad>, qs: seq<Quad>)
    ensures MatchesAny(k, e, ps + qs) == (MatchesAny(k, e, ps) || MatchesAny(k, e, qs))
    decreases |ps|
  {
    if |ps| > 0 {
      assert (ps + qs)[0] == ps[0] && (ps + qs)[1..] == ps[1..] + qs;
      MatchesAnyAppend(k, e, ps[1..], qs);
    } else {
      assert ps + qs == qs;
    }
  }

  /** The dihedrals surviving the planar pass are exactly those, in their old
      order, that match no pattern of any planar group. */
  lemma {:induction false} PlanarPassFilter(pl: ParamLists, plan: seq<PlanarGroup>, k: Kind)
    requires k == RBDihs || k == PDihs
    ensures PlanarPass(pl, plan).Get(k) == Keep(pl.Get(k), AnyMatcher(k, AllPatterns(plan)))
    decreases |plan|
  {
    if |plan| == 0 {
      KeepNothing(pl.Get(k), AnyMatcher(k, []));
    } else {
      var ps, rest := PlanarPatterns(plan[0]), AllPatterns(plan[1..]);
      var pl1 := PlanarStep(pl, plan[0]);
      assert pl1.Get(k) == DeletePatterns(pl, ps).Get(k);
      DeletePatternsFilter(pl, ps, k);
      PlanarPassFilter(pl1, plan[1..], k);
      forall e | true
        ensures AnyMatcher(k, ps + rest)(e) == (AnyMatcher(k, ps)(e) || AnyMatcher(k, rest)(e))
      {
        MatchesAnyAppend(k, e, ps, rest);
      }
      KeepTwice(pl.Get(k), AnyMatcher(k, ps), AnyMatcher(k, rest), AnyMatcher(k, ps + rest));
    }
  }

  /** Membership form: a dihedral is in the result iff it was in the input
      and matches none of the planar patterns. */
  lemma PlanarPassMembers(pl: ParamLists, plan: seq<PlanarGroup>, k: Kind, e: Param)
    requires k == RBDihs || k == PDihs
    ensures e in PlanarPass(pl, plan).Get(k) <==> e in pl.Get(k) && !MatchesAny(k, e, AllPatterns(plan))
  {
    PlanarPassFilter(pl, plan, k);
    KeepMembers(pl.Get(k), AnyMatcher(k, AllPatterns(plan)));
  }

  /** The bond count of the centre atom is never consulted. */
  lemma CentreCountIgnored(pl: ParamLists, g: PlanarGroup, v: int)
    ensures PlanarStep(pl, g.(nb := g.nb[0 := v])) == PlanarStep(pl, g)
  {
    assert PlanarPatterns(g.(nb := g.nb[0 := v])) == PlanarPatterns(g);
  }

  /** The planar group `(0,1,2,3)` with bond counts `{1,3,3,1}`: only atom 3
      is a terminal substituent (atom 0 is the centre and its count is not
      read), so the patterns are `3-0-1-*` and `3-0-2-*`, and the improper
      `(0,1,2,3)` is added. */
  lemma PlanarScenario(pl: ParamLists)
    ensures var g := PlanarGroup([0, 1, 2, 3], [1, 3, 3, 1]);
            && PlanarPatterns(g) == [[3, 0, 1, Wildcard], [3, 0, 2, Wildcard]]
            && PlanarStep(pl, g).idihs == pl.idihs + [Param([0, 1, 2, 3], [])]
  {
  }

  /** In the same scenario a dihedral of either kind survives exactly when
      it matches neither pattern, forwards, reversed or shifted. */
  lemma PlanarScenarioSurvivors(pl: ParamLists, k: Kind, e: Param)
    requires k == RBDihs || k == PDihs
    ensures var g := PlanarGroup([0, 1, 2, 3], [1, 3, 3, 1]);
            e in PlanarStep(pl, g).Get(k) <==>
              e in pl.Get(k) && !DihedralMatch(e, [3, 0, 1, Wildcard]) && !DihedralMatch(e, [3, 0, 2, Wildcard])
  {
    var g := PlanarGroup([0, 1, 2, 3], [1, 3, 3, 1]);
    var ps: seq<Quad> := [[3, 0, 1, Wildcard], [3, 0, 2, Wildcard]];
    assert PlanarPatterns(g) == ps;
    PlanarStepMembers(pl, g, k, e);
    MatchesEither(k, e, ps[0], ps[1]);
    assert [ps[0], ps[1]] == ps;
  }

  /** Instances of the scenario: the reversed `9-1-0-3` and the shifted
      `9-3-0-1` are deleted, not only the forward `3-0-1-*`. */
  lemma PlanarScenarioDeletes(pl: ParamLists)
    ensures var g := PlanarGroup([0, 1, 2, 3], [1, 3, 3, 1]);
            && Param([9, 1, 0, 3], []) !in PlanarStep(pl, g).pdihs
            && Param([9, 3, 0, 1], []) !in PlanarStep(pl, g).pdihs
  {
    var e1, e2 := Param([9, 1, 0, 3], []), Param([9, 3, 0, 1], []);
    assert DihedralMatch(e1, [3, 0, 1, Wildcard]);
    ScenarioDeleted(pl, e1);
    assert DihedralMatch(e2, [3, 0, 1, Wildcard]);
    ScenarioDeleted(pl, e2);
  }

  lemma ScenarioDeleted(pl: ParamLists, e: Param)
    requires DihedralMatch(e, [3, 0, 1, Wildcard]) || DihedralMatch(e, [3, 0, 2, Wildcard])
    ensures e !in PlanarStep(pl, PlanarGroup([0, 1, 2, 3], [1, 3, 3, 1])).pdihs
  {
    var g := PlanarGroup([0, 1, 2, 3], [1, 3, 3, 1]);
    PlanarScenarioSurvivors(pl, PDihs, e);
    assert PlanarStep(pl, g).Get(PDihs) == PlanarStep(pl, g).pdihs;
  }

  /** `1-0-2-9` runs through the centre but not from atom 3, so it survives. */
  lemma PlanarScenarioKeeps(pl: ParamLists)
    ensures var g := PlanarGroup([0, 1, 2, 3], [1, 3, 3, 1]);
            Param([1, 0, 2, 9], []) in pl.pdihs ==> Param([1, 0, 2, 9], []) in PlanarStep(pl, g).pdihs
  {
    var g, e := PlanarGroup([0, 1, 2, 3], [1, 3, 3, 1]), Param([1, 0, 2, 9], []);
    assert !DihedralMatch(e, [3, 0, 1, Wildcard]) && !DihedralMatch(e, [3, 0, 2, Wildcard]);
    PlanarScenarioSurvivors(pl, PDihs, e);
    assert PlanarStep(pl, g).Get(PDihs) == PlanarStep(pl, g).pdihs;
  }

  /** A dihedral matches one of two patterns iff it matches the first or the second. */
  lemma MatchesEither(k: Kind, e: Param, p: Quad, q: Quad)
    requires k == RBDihs || k == PDihs
    ensures MatchesAny(k, e, [p, q]) <==> DihedralMatch(e, p) || DihedralMatch(e, q)
  {
    assert MatchesAny(k, e, [q]) <==> Matches(k, e, q) by {
      assert [q][1..] == [];
    }
    assert MatchesAny(k, e, [p, q]) <==> Matches(k, e, p) || MatchesAny(k, e, [q]) by {
      assert [p, q][1..] == [q];
    }
  }

  /** Membership form of one planar step: a dihedral survives iff it was
      there and matches none of the group's patterns. */
  lemma PlanarStepMembers(pl: ParamLists, g: PlanarGroup, k: Kind, e: Param)
    requires k == RBDihs || k == PDihs
    ensures e in PlanarStep(pl, g).Get(k) <==> e in pl.Get(k) && !MatchesAny(k, e, PlanarPatterns(g))
  {
    assert PlanarStep(pl, g).Get(k) == DeletePatterns(pl, PlanarPatterns(g)).Get(k);
    DeletePatternsFilter(pl, PlanarPatterns(g), k);
    KeepMembers(pl.Get(k), AnyMatcher(k, PlanarPatterns(g)));
  }

  // -------------------------------------------------------------- the pass

  /** What the pass leaves behind: the merged linear groups and the rewritten topology. */
  datatype Generated = Generated(lin: seq<LinearGroup>, topo: Topology)

  /** `gentop_vsite_generate_special`. `norm` is the vector length and
      `mlType` the atom type registered for the new mass particles. */
  function GenerateSpecial(reg: Registry, genVsites: bool, t: Topology, norm: Vec3 -> real, mlType: int)
    : (r: Result<Generated>)
    requires Shaped(t) && HeadsWithin(reg.lin, |t.atoms|)
    ensures Check(reg.lin).Failure? ==> r == Failure(StrangeOrder)
    ensures r.Success? ==> Check(reg.lin) == Success(r.value.lin)
    ensures r.Success? && !LinearOn(reg.egvt) ==> r.value.topo.atoms == t.atoms && r.value.topo.x == t.x
    ensures r.Success? && !PlanarOn(reg.egvt) ==> r.value.topo.plist.idihs == t.plist.idihs
    ensures r.Success? && PlanarOn(reg.egvt) ==>
              r.value.topo.plist.idihs == t.plist.idihs + Impropers(reg.plan)
    ensures LinearOn(reg.egvt) && !genVsites && reg.lin != [] && Check(reg.lin).Success? ==>
              r == Failure(LinearAnglesUnimplemented)
    ensures r.Success? && LinearOn(reg.egvt) ==>
              && |r.value.topo.atoms| == |t.atoms| + LiveCount(r.value.lin)
              && |r.value.topo.x| == |r.value.topo.atoms|
              && |r.value.topo.plist.constr| == |t.plist.constr| + LiveCount(r.value.lin)
    ensures r.Success? && LinearOn(reg.egvt) && reg.lin != [] ==> ExclsReset(r.value.topo)
  {
    CheckWithin(reg.lin, |t.atoms|);
    var lin :- Check(reg.lin);
    assert |lin| == |reg.lin|;
    var t1 :- LinearPhase(reg.egvt, t, lin, genVsites, norm, mlType);
    Success(Generated(lin, PlanarPhase(reg.egvt, t1, reg.plan)))
  }

  /** The linear pass when the mode asks for it. */
  function LinearPhase(egvt: int, t: Topology, lin: seq<LinearGroup>, genVsites: bool, norm: Vec3 -> real, mlType: int)
    : (r: Result<Topology>)
    requires Shaped(t) && AllValid(lin) && AtomsWithin(lin, |t.atoms|)
    ensures !LinearOn(egvt) ==> r == Success(t)
    ensures LinearOn(egvt) && !genVsites && lin != [] ==> r == Failure(LinearAnglesUnimplemented)
    ensures r.Success? ==>
              && Shaped(r.value)
              && |r.value.atoms| == |t.atoms| + (if LinearOn(egvt) then LiveCount(lin) else 0)
              && r.value.plist.idihs == t.plist.idihs
              && |r.value.plist.constr| == |t.plist.constr| + (if LinearOn(egvt) then LiveCount(lin) else 0)
    ensures r.Success? && LinearOn(egvt) && lin != [] ==> ExclsReset(r.value)
  {
    if LinearOn(egvt) then LinearPass(t, lin, genVsites, norm, mlType) else Success(t)
  }

  /** The planar pass when the mode asks for it; it edits parameter lists only. */
  function PlanarPhase(egvt: int, t: Topology, plan: seq<PlanarGroup>): (r: Topology)
    ensures r.atoms == t.atoms && r.x == t.x && r.excls == t.excls
    ensures ExclsReset(r) == ExclsReset(t)
    ensures r.plist.constr == t.plist.constr
    ensures !PlanarOn(egvt) ==> r == t
    ensures PlanarOn(egvt) ==> r.plist.idihs == t.plist.idihs + Impropers(plan)
  {
    if PlanarOn(egvt) then
      var pl := PlanarPass(t.plist, plan);
      var r := t.(plist := pl);
      assert r.atoms == t.atoms && r.excls == t.excls;
      r
    else t
  }

  /** With the linear pass off, the planar pass alone decides which
      dihedrals survive: those of the input matching no planar pattern. */
  lemma PlanarOnlySurvivors(reg: Registry, genVsites: bool, t: Topology, norm: Vec3 -> real, mlType: int, k: Kind)
    requires Shaped(t) && HeadsWithin(reg.lin, |t.atoms|)
    requires PlanarOn(reg.egvt) && !LinearOn(reg.egvt) && (k == RBDihs || k == PDihs)
    requires GenerateSpecial(reg, genVsites, t, norm, mlType).Success?
    ensures GenerateSpecial(reg, genVsites, t, norm, mlType).value.topo.plist.Get(k) ==
            Keep(t.plist.Get(k), AnyMatcher(k, AllPatterns(reg.plan)))
  {
    PlanarPassFilter(t.plist, reg.plan, k);
  }
}

=== FILE: merge.dfy ===
/** The merge pass (`gentop_vsite_check`): every linear group starts as a
    triple; two groups that share atoms are fused into one four-atom chain
    when one continues the other, the absorbed group being marked dead
    (`nline == 0`), and any other overlap aborts. */
module Merge {
  import opened Topology
  import opened Registry
  import opened Outcomes

  /** The group sizes the merge pass works with and leaves behind. */
  predicate ValidLine(g: LinearGroup) {
    g.nline == 0 || g.nline == 3 || g.nline == 4
  }

  predicate AllValid(lin: seq<LinearGroup>) {
    forall k :: 0 <= k < |lin| ==> ValidLine(lin[k])
  }

  /** The atoms a group currently spans. */
  function Members(g: LinearGroup): seq<int>
    requires ValidLine(g)
  {
    g.a[..g.nline]
  }

  function Occurrences(x: int, t: seq<int>): nat
    decreases |t|
  {
    if |t| == 0 then 0 else (if t[0] == x then 1 else 0) + Occurrences(x, t[1..])
  }

  /** The number of index pairs `(k, l)` with `s[k] == t[l]`. */
  function Coincidences(s: seq<int>, t: seq<int>): nat
    decreases |s|
  {
    if |s| == 0 then 0 else Occurrences(s[0], t) + Coincidences(s[1..], t)
  }

  /** A merge is attempted when the coincidence count, halved with integer
      division, is positive, that is when at least two pairs coincide. */
  predicate Overlap(gi: LinearGroup, gj: LinearGroup)
    requires ValidLine(gi) && ValidLine(gj)
  {
    Coincidences(Members(gi), Members(gj)) / 2 > 0
  }

  /** `gj` continues `gi`: its first two atoms are `gi`'s atoms 1 and 2. */
  predicate Continues(gi: LinearGroup, gj: LinearGroup) {
    gj.a[0] == gi.a[1] && gj.a[1] == gi.a[2]
  }

  /** The first three atom slots of every group are the same in both sequences. */
  predicate SameHeads(lin: seq<LinearGroup>, r: seq<LinearGroup>) {
    |r| == |lin| && forall k :: 0 <= k < |lin| ==> r[k].a[..3] == lin[k].a[..3]
  }

  /** Dead groups of `lin` are untouched in `r`. */
  predicate DeadKept(lin: seq<LinearGroup>, r: seq<LinearGroup>)
    requires |r| == |lin|
  {
    forall k :: 0 <= k < |lin| && lin[k].nline == 0 ==> r[k] == lin[k]
  }

  /** One step of the pass, for the pair `i < j`. */
  function MergePair(lin: seq<LinearGroup>, i: nat, j: nat): (r: Result<seq<LinearGroup>>)
    requires i < j < |lin| && AllValid(lin)
    ensures r.Success? ==> SameHeads(lin, r.value) && AllValid(r.value)
    ensures !Overlap(lin[i], lin[j]) ==> r == Success(lin)
    ensures Overlap(lin[i], lin[j]) && Continues(lin[i], lin[j]) ==>
              && r.Success?
              && r.value[i].nline == 4 && r.value[i].a == lin[i].a[..3] + [lin[j].a[2]]
              && r.value[j] == lin[j].(nline := 0)
              && forall k :: 0 <= k < |lin| && k != i && k != j ==> r.value[k] == lin[k]
    ensures Overlap(lin[i], lin[j]) && !Continues(lin[i], lin[j]) && Continues(lin[j], lin[i]) ==>
              && r.Success?
              && r.value[j].nline == 4 && r.value[j].a == lin[j].a[..3] + [lin[i].a[2]]
              && r.value[i] == lin[i].(nline := 0)
              && forall k :: 0 <= k < |lin| && k != i && k != j ==> r.value[k] == lin[k]
    ensures Overlap(lin[i], lin[j]) && !Continues(lin[i], lin[j]) && !Continues(lin[j], lin[i]) ==>
              r == Failure(StrangeOrder)
  {
    var gi := lin[i];
    var gj := lin[j];
    if !Overlap(gi, gj) then Success(lin)
    else if Continues(gi, gj) then
      Success(lin[i := LinearGroup(4, gi.a[3 := gj.a[2]])][j := gj.(nline := 0)])
    else if Continues(gj, gi) then
      Success(lin[j := LinearGroup(4, gj.a[3 := gi.a[2]])][i := gi.(nline := 0)])
    else Failure(StrangeOrder)
  }

  lemma {:induction false} CoincidencesWithNothing(s: seq<int>)
    ensures Coincidences(s, []) == 0
    decreases |s|
  {
    if |s| > 0 {
      CoincidencesWithNothing(s[1..]);
    }
  }

  /** A dead group takes no part in a merge, on either side of the pair. */
  lemma DeadGroupIgnored(lin: seq<LinearGroup>, i: nat, j: nat)
    requires i < j < |lin| && AllValid(lin)
    requires lin[i].nline == 0 || lin[j].nline == 0
    ensures MergePair(lin, i, j) == Success(lin)
  {
    CoincidencesWithNothing(Members(lin[i]));
  }

  /** Pairs `(i, j)` for `j` from `from` on. */
  function MergeRow(lin: seq<LinearGroup>, i: nat, from: nat): (r: Result<seq<LinearGroup>>)
    requires i < from <= |lin| && AllValid(lin)
    ensures r.Success? ==> SameHeads(lin, r.value) && AllValid(r.value) && DeadKept(lin, r.value)
    ensures r.Failure? ==> r.error == StrangeOrder
    decreases |lin| - from
  {
    if from == |lin| then Success(lin)
    else
      DeadKeptByPair(lin, i, from);
      var lin' :- MergePair(lin, i, from);
      MergeRow(lin', i, from + 1)
  }

  lemma DeadKeptByPair(lin: seq<LinearGroup>, i: nat, j: nat)
    requires i < j < |lin| && AllValid(lin)
    ensures MergePair(lin, i, j).Success? ==> DeadKept(lin, MergePair(lin, i, j).value)
  {
    if lin[i].nline == 0 || lin[j].nline == 0 {
      DeadGroupIgnored(lin, i, j);
    }
  }

  /** All pairs `(i, j)` with `from <= i < j`. */
  function MergeFrom(lin: seq<LinearGroup>, from: nat): (r: Result<seq<LinearGroup>>)
    requires from <= |lin| && AllValid(lin)
    ensures r.Success? ==> SameHeads(lin, r.value) && AllValid(r.value) && DeadKept(lin, r.value)
    ensures r.Failure? ==> r.error == StrangeOrder
    decreases |lin| - from
  {
    if from == |lin| then Success(lin)
    else
      var lin' :- MergeRow(lin, from, from + 1);
      MergeFrom(lin', from + 1)
  }

  /** `gentop_vsite_check`: resets every group to a triple and merges every
      pair in order. On success every group has 0, 3 or 4 atoms and keeps
      its first three atoms; the only failure is the ordering error. */
  function Check(lin: seq<LinearGroup>): (r: Result<seq<LinearGroup>>)
    ensures r.Success? ==> SameHeads(lin, r.value) && AllValid(r.value)
    ensures r.Failure? ==> r.error == StrangeOrder
  {
    var triples := seq(|lin|, k requires 0 <= k < |lin| => lin[k].(nline := 3));
    MergeFrom(triples, 0)
  }

  // ------------------------------------------------------- atom ranges

  /** The first three atoms of every group are atoms `0..n-1`. */
  predicate HeadsWithin(lin: seq<LinearGroup>, n: int) {
    forall k :: 0 <= k < |lin| ==>
      0 <= lin[k].a[0] < n && 0 <= lin[k].a[1] < n && 0 <= lin[k].a[2] < n
  }

  /** Every atom a group spans is one of atoms `0..n-1`. */
  predicate AtomsWithin(lin: seq<LinearGroup>, n: int) {
    && HeadsWithin(lin, n)
    && forall k :: 0 <= k < |lin| && lin[k].nline == 4 ==> 0 <= lin[k].a[3] < n
  }

  /** A merge takes the fourth atom from the other group's third, so it
      never introduces an atom that was not already a group member. */
  lemma PairWithin(lin: seq<LinearGroup>, i: nat, j: nat, n: int)
    requires i < j < |lin| && AllValid(lin) && AtomsWithin(lin, n)
    ensures MergePair(lin, i, j).Success? ==> AtomsWithin(MergePair(lin, i, j).value, n)
  {
  }

  lemma {:induction false} RowWithin(lin: seq<LinearGroup>, i: nat, from: nat, n: int)
    requires i < from <= |lin| && AllValid(lin) && AtomsWithin(lin, n)
    ensures MergeRow(lin, i, from).Success? ==> AtomsWithin(MergeRow(lin, i, from).value, n)
    decreases |lin| - from
  {
    if from < |lin| {
      PairWithin(lin, i, from, n);
      var r := MergePair(lin, i, from);
      if r.Success? {
        RowWithin(r.value, i, from + 1, n);
      }
    }
  }

  lemma {:induction false} FromWithin(lin: seq<LinearGroup>, from: nat, n: int)
    requires from <= |lin| && AllValid(lin) && AtomsWithin(lin, n)
    ensures MergeFrom(lin, from).Success? ==> AtomsWithin(MergeFrom(lin, from).value, n)
    decreases |lin| - from
  {
    if from < |lin| {
      var r := MergeRow(lin, from, from + 1);
      RowWithin(lin, from, from + 1, n);
      if r.Success? {
        FromWithin(r.value, from + 1, n);
      }
    }
  }

  /** If every registered group's three atoms are atoms of the topology,
      then after the merge pass every atom of every group is. */
  lemma CheckWithin(lin: seq<LinearGroup>, n: int)
    requires HeadsWithin(lin, n)
    ensures Check(lin).Success? ==> AtomsWithin(Check(lin).value, n)
  {
    var triples := seq(|lin|, k requires 0 <= k < |lin| => lin[k].(nline := 3));
    FromWithin(triples, 0, n);
  }

  // -------------------------------------------------------------- scenarios

  lemma ThreeCoincidences(x: int, y: int, z: int, t: seq<int>)
    ensures Coincidences([x, y, z], t) == Occurrences(x, t) + Occurrences(y, t) + Occurrences(z, t)
  {
    assert [x, y, z][1..] == [y, z];
    assert [y, z][1..] == [z];
    assert [z][1..] == [];
    assert Coincidences([z], t) == Occurrences(z, t);
    assert Coincidences([y, z], t) == Occurrences(y, t) + Coincidences([z], t);
  }

  lemma ThreeOccurrences(x: int, a: int, b: int, c: int)
    ensures Occurrences(x, [a, b, c]) ==
              (if x == a then 1 else 0) + (if x == b then 1 else 0) + (if x == c then 1 else 0)
  {
    assert [a, b, c][1..] == [b, c];
    assert [b, c][1..] == [c];
    assert [c][1..] == [];
    assert Occurrences(x, [c]) == (if x == c then 1 else 0);
    assert Occurrences(x, [b, c]) == (if x == b then 1 else 0) + Occurrences(x, [c]);
  }

  /** Two triples `(A,B,C)` and `(B,C,D)` fuse into `(A,B,C,D)`, whichever
      was registered first; the other group is marked dead. */
  lemma MergeTwoTriples(a: int, b: int, c: int, d: int)
    requires !(a == c && b == d)
    ensures Check([NewLinear(a, b, c), NewLinear(b, c, d)]) ==
              Success([LinearGroup(4, [a, b, c, d]), LinearGroup(0, [b, c, d, Unset])])
    ensures Check([NewLinear(b, c, d), NewLinear(a, b, c)]) ==
              Success([LinearGroup(0, [b, c, d, Unset]), LinearGroup(4, [a, b, c, d])])
  {
    var g1 := LinearGroup(3, [a, b, c, Unset]);
    var g2 := LinearGroup(3, [b, c, d, Unset]);
    var merged := LinearGroup(4, [a, b, c, d]);
    var dead := LinearGroup(0, [b, c, d, Unset]);
    assert Members(g1) == [a, b, c] && Members(g2) == [b, c, d];
    assert g1.a[3 := g2.a[2]] == [a, b, c, d];

    ThreeCoincidences(a, b, c, [b, c, d]);
    ThreeOccurrences(a, b, c, d);
    ThreeOccurrences(b, b, c, d);
    ThreeOccurrences(c, b, c, d);
    assert Overlap(g1, g2);
    var fwd := [NewLinear(a, b, c), NewLinear(b, c, d)];
    var t := [g1, g2];
    assert seq(2, k requires 0 <= k < 2 => fwd[k].(nline := 3)) == t;
    assert Continues(g1, g2);
    assert t[0 := merged][1 := g2.(nline := 0)] == [merged, dead];
    assert MergePair(t, 0, 1) == Success([merged, dead]);
    assert MergeRow(t, 0, 1) == Success([merged, dead]);
    assert MergeFrom([merged, dead], 1) == Success([merged, dead]);

    ThreeCoincidences(b, c, d, [a, b, c]);
    ThreeOccurrences(b, a, b, c);
    ThreeOccurrences(c, a, b, c);
    ThreeOccurrences(d, a, b, c);
    assert Overlap(g2, g1);
    var rev := [NewLinear(b, c, d), NewLinear(a, b, c)];
    var u := [g2, g1];
    assert seq(2, k requires 0 <= k < 2 => rev[k].(nline := 3)) == u;
    assert !Continues(g2, g1) && Continues(g1, g2);
    assert u[1 := merged][0 := g2.(nline := 0)] == [dead, merged];
    assert MergePair(u, 0, 1) == Success([dead, merged]);
    assert MergeRow(u, 0, 1) == Success([dead, merged]);
    assert MergeFrom([dead, merged], 1) == Success([dead, merged]);
  }

  /** An extended group can merge again: its fourth atom is overwritten by
      the next continuation, here `(0,1,2)+(1,2,3)+(1,2,4)` ends as `(0,1,2,4)`. */
  lemma RemergeOverwritesFourthAtom()
    ensures Check([NewLinear(0, 1, 2), NewLinear(1, 2, 3), NewLinear(1, 2, 4)]) ==
              Success([LinearGroup(4, [0, 1, 2, 4]), LinearGroup(0, [1, 2, 3, Unset]),
                       LinearGroup(0, [1, 2, 4, Unset])])
  {
    var lin := [NewLinear(0, 1, 2), NewLinear(1, 2, 3), NewLinear(1, 2, 4)];
    var t := [LinearGroup(3, [0, 1, 2, Unset]), LinearGroup(3, [1, 2, 3, Unset]), LinearGroup(3, [1, 2, 4, Unset])];
    assert seq(3, k requires 0 <= k < 3 => lin[k].(nline := 3)) == t;
    var t1 := [LinearGroup(4, [0, 1, 2, 3]), LinearGroup(0, [1, 2, 3, Unset]), LinearGroup(3, [1, 2, 4, Unset])];
    var t2 := [LinearGroup(4, [0, 1, 2, 4]), LinearGroup(0, [1, 2, 3, Unset]), LinearGroup(0, [1, 2, 4, Unset])];
    RemergeFirstPair(t, t1);
    RemergeSecondPair(t1, t2);
    assert MergeRow(t1, 0, 2) == Success(t2);
    assert MergeRow(t, 0, 1) == Success(t2);
    DeadGroupIgnored(t2, 1, 2);
    assert MergeRow(t2, 1, 2) == Success(t2);
    assert MergeFrom(t2, 2) == Success(t2);
    assert MergeFrom(t2, 1) == Success(t2);
  }

  lemma RemergeFirstPair(t: seq<LinearGroup>, t1: seq<LinearGroup>)
    requires t == [LinearGroup(3, [0, 1, 2, Unset]), LinearGroup(3, [1, 2, 3, Unset]), LinearGroup(3, [1, 2, 4, Unset])]
    requires t1 == [LinearGroup(4, [0, 1, 2, 3]), LinearGroup(0, [1, 2, 3, Unset]), LinearGroup(3, [1, 2, 4, Unset])]
    ensures AllValid(t) && MergePair(t, 0, 1) == Success(t1)
  {
    assert Members(t[0]) == [0, 1, 2] && Members(t[1]) == [1, 2, 3];
    ThreeCoincidences(0, 1, 2, [1, 2, 3]);
    ThreeOccurrences(0, 1, 2, 3);
    ThreeOccurrences(1, 1, 2, 3);
    ThreeOccurrences(2, 1, 2, 3);
    assert Overlap(t[0], t[1]) && Continues(t[0], t[1]);
    assert t[0].a[3 := t[1].a[2]] == [0, 1, 2, 3];
    assert t[0 := t1[0]][1 := t[1].(nline := 0)] == t1;
  }

  lemma RemergeSecondPair(t1: seq<LinearGroup>, t2: seq<LinearGroup>)
    requires t1 == [LinearGroup(4, [0, 1, 2, 3]), LinearGroup(0, [1, 2, 3, Unset]), LinearGroup(3, [1, 2, 4, Unset])]
    requires t2 == [LinearGroup(4, [0, 1, 2, 4]), LinearGroup(0, [1, 2, 3, Unset]), LinearGroup(0, [1, 2, 4, Unset])]
    ensures AllValid(t1) && MergePair(t1, 0, 2) == Success(t2)
  {
    assert Members(t1[0]) == [0, 1, 2, 3] && Members(t1[2]) == [1, 2, 4];
    assert Coincidences([0, 1, 2, 3], [1, 2, 4]) == Coincidences([1, 2, 3], [1, 2, 4]) by {
      assert [0, 1, 2, 3][1..] == [1, 2, 3];
      ThreeOccurrences(0, 1, 2, 4);
    }
    ThreeCoincidences(1, 2, 3, [1, 2, 4]);
    ThreeOccurrences(1, 1, 2, 4);
    ThreeOccurrences(2, 1, 2, 4);
    ThreeOccurrences(3, 1, 2, 4);
    assert Overlap(t1[0], t1[2]) && Continues(t1[0], t1[2]);
    assert t1[0].a[3 := t1[2].a[2]] == [0, 1, 2, 4];
    assert t1[0 := t2[0]][2 := t1[2].(nline := 0)] == t2;
  }

  /** Two triples sharing their last two atoms in opposite directions abort. */
  lemma ReversedOverlapIsFatal()
    ensures Check([NewLinear(0, 1, 2), NewLinear(2, 1, 5)]) == Failure(StrangeOrder)
  {
    var lin := [NewLinear(0, 1, 2), NewLinear(2, 1, 5)];
    var g0 := LinearGroup(3, [0, 1, 2, Unset]);
    var g1 := LinearGroup(3, [2, 1, 5, Unset]);
    var t := [g0, g1];
    assert seq(2, k requires 0 <= k < 2 => lin[k].(nline := 3)) == t;
    assert Members(g0) == [0, 1, 2] && Members(g1) == [2, 1, 5];
    ThreeCoincidences(0, 1, 2, [2, 1, 5]);
    ThreeOccurrences(0, 2, 1, 5);
    ThreeOccurrences(1, 2, 1, 5);
    ThreeOccurrences(2, 2, 1, 5);
    assert Overlap(g0, g1);
    assert MergePair(t, 0, 1) == Failure(StrangeOrder);
    assert MergeRow(t, 0, 1) == Failure(StrangeOrder);
  }

  /** A triple registered forwards and then reversed is stored twice, and
      the merge pass then aborts on the pair. */
  lemma ReversedDuplicateAborts(egvt: int)
    ensures Check(AddLinear(AddLinear(Init(egvt), 0, 1, 2), 2, 1, 0).lin) == Failure(StrangeOrder)
  {
    ReversedLinearStoredTwice(egvt, 0, 1, 2);
    var lin := AddLinear(AddLinear(Init(egvt), 0, 1, 2), 2, 1, 0).lin;
    assert lin == [NewLinear(0, 1, 2), NewLinear(2, 1, 0)];
    var g0 := LinearGroup(3, [0, 1, 2, Unset]);
    var g1 := LinearGroup(3, [2, 1, 0, Unset]);
    var t := [g0, g1];
    assert seq(2, k requires 0 <= k < 2 => lin[k].(nline := 3)) == t;
    assert Members(g0) == [0, 1, 2] && Members(g1) == [2, 1, 0];
    ThreeCoincidences(0, 1, 2, [2, 1, 0]);
    ThreeOccurrences(0, 2, 1, 0);
    ThreeOccurrences(1, 2, 1, 0);
    ThreeOccurrences(2, 2, 1, 0);
    assert Overlap(g0, g1);
    assert MergePair(t, 0, 1) == Failure(StrangeOrder);
    assert MergeRow(t, 0, 1) == Failure(StrangeOrder);
  }

  /** With the corrected duplicate test the reversed triple is absorbed at
      registration, and the merge pass goes through. */
  lemma ReversedDuplicateIntendedPasses(egvt: int)
    ensures Check(AddLinearIntended(AddLinearIntended(Init(egvt), 0, 1, 2), 2, 1, 0).lin) ==
            Success([LinearGroup(3, [0, 1, 2, Unset])])
  {
    var r1 := AddLinearIntended(Init(egvt), 0, 1, 2);
    assert r1.lin == [NewLinear(0, 1, 2)];
    assert SameLinearIntended(r1.lin[0], 2, 1, 0);
    var t := [LinearGroup(3, [0, 1, 2, Unset])];
    assert seq(1, k requires 0 <= k < 1 => r1.lin[k].(nline := 3)) == t;
    assert MergeRow(t, 0, 1) == Success(t);
    assert MergeFrom(t, 1) == Success(t);
  }
}

=== FILE: outcomes.dfy ===
/** Fatal errors of the virtual-site generator and a failure-compatible
    result type carrying them. Every `gmx_fatal` of the generator aborts the
    whole pass, so a failure is never recovered from. */
module Outcomes {

  /** The ways the generator can abort. */
  datatype Fatal =
    /** Two linear groups share atoms in neither chain orientation. */
    | StrangeOrder
    /** The anchor mass of a reduced linear group came out non-positive. */
    | NonPositiveMass(mass: real)
    /** Linear-angle replacement was requested; it is not implemented. */
    | LinearAnglesUnimplemented
    /** A reduction would divide by zero (total mass, centre of mass or
        mass-particle distance equal to zero). The C code does not guard
        these divisions; the model stops instead of producing inf or NaN. */
    | NonFiniteGeometry

  datatype Result<+T> = Success(value: T) | Failure(error: Fatal) {

    predicate IsFailure() {
      Failure?
    }

    function PropagateFailure<U>(): Result<U>
      requires Failure?
    {
      Failure(error)
    }

    function Extract(): T
      requires Success?
    {
      value
    }
  }
}

=== FILE: paramedit.dfy ===
/** The parameter-list editor (`delete_params`): removes entries matching an
    atom pattern from the bond, angle or dihedral list, compacting the list
    so that the survivors keep their relative order. Bonds and angles lose
    at most their first match; dihedrals lose every match. */
module ParamEdit {
  import opened Topology

  /** How many pattern slots a kind's matching rule reads. */
  function Arity(k: Kind): nat {
    match k
    case Bonds => 2
    case Angles => 3
    case PDihs => 4
    case RBDihs => 4
    case _ => 0
  }

  /** The kinds the editor knows; every other kind is left untouched. */
  predicate Editable(k: Kind) {
    k == Bonds || k == Angles || k == PDihs || k == RBDihs
  }

  /** Bonds and angles stop after their first match. */
  predicate FirstOnly(k: Kind) {
    k == Bonds || k == Angles
  }

  /** A bond matches when its two atoms are the pattern's two, in either order. */
  predicate BondMatch(e: Param, p: seq<int>)
    requires |p| >= 2
  {
    (e.a[0] == p[0] && e.a[1] == p[1]) || (e.a[1] == p[0] && e.a[0] == p[1])
  }

  /** An angle matches when its middle atom is the pattern's middle atom and
      its outer atoms are the pattern's outer atoms, in either order. */
  predicate AngleMatch(e: Param, p: seq<int>)
    requires |p| >= 3
  {
    e.a[1] == p[1] && ((e.a[0] == p[0] && e.a[2] == p[2]) || (e.a[2] == p[0] && e.a[0] == p[2]))
  }

  /** A dihedral matches forwards, reversed, or (only under a wildcard last
      slot) shifted by one: its atoms 1..3 equal pattern atoms 0..2. */
  predicate DihedralMatch(e: Param, p: seq<int>)
    requires |p| >= 4
  {
    || (e.a[0] == p[0] && e.a[1] == p[1] && e.a[2] == p[2] && (p[3] == Wildcard || e.a[3] == p[3]))
    || (e.a[3] == p[0] && e.a[2] == p[1] && e.a[1] == p[2] && (p[3] == Wildcard || e.a[0] == p[3]))
    || (e.a[1] == p[0] && e.a[2] == p[1] && e.a[3] == p[2] && p[3] == Wildcard)
  }

  predicate Matches(k: Kind, e: Param, p: seq<int>)
    requires |p| >= Arity(k)
  {
    match k
    case Bonds => BondMatch(e, p)
    case Angles => AngleMatch(e, p)
    case PDihs => DihedralMatch(e, p)
    case RBDihs => DihedralMatch(e, p)
    case _ => false
  }

  // ------------------------------------------------------- first match only

  /** Index of the first entry matching `p`, or `|s|` when none does. */
  function FirstMatch(k: Kind, s: seq<Param>, p: seq<int>, from: nat): (i: nat)
    requires |p| >= Arity(k) && from <= |s|
    ensures from <= i <= |s|
    ensures forall j :: from <= j < i ==> !Matches(k, s[j], p)
    ensures i < |s| ==> Matches(k, s[i], p)
    decreases |s| - from
  {
    if from == |s| || Matches(k, s[from], p) then from else FirstMatch(k, s, p, from + 1)
  }

  predicate NoMatch(k: Kind, s: seq<Param>, p: seq<int>)
    requires |p| >= Arity(k)
  {
    forall j :: 0 <= j < |s| ==> !Matches(k, s[j], p)
  }

  /** Removes the first entry matching `p`, if any, keeping the others in order. */
  function RemoveFirst(k: Kind, s: seq<Param>, p: seq<int>): (r: seq<Param>)
    requires |p| >= Arity(k)
    ensures NoMatch(k, s, p) ==> r == s
    ensures forall i :: 0 <= i < |s| && Matches(k, s[i], p) && NoMatch(k, s[..i], p) ==>
              r == s[..i] + s[i + 1..]
    ensures |r| == |s| - 1 <==> !NoMatch(k, s, p)
    ensures |r| == |s| || |r| == |s| - 1
  {
    var i := FirstMatch(k, s, p, 0);
    if i == |s| then s
    else
      assert forall j :: 0 <= j < |s| && Matches(k, s[j], p) ==> (NoMatch(k, s[..j], p) ==> j == i) by {
        forall j | 0 <= j < |s| && Matches(k, s[j], p)
          ensures NoMatch(k, s[..j], p) ==> j == i
        {
          if i < j {
            assert s[..j][i] == s[i];
          }
        }
      }
      s[..i] + s[i + 1..]
  }

  /** Removing the first match only ever takes out a matching entry: every
      survivor was in the input, and every non-matching entry survives. */
  lemma RemoveFirstMembers(k: Kind, s: seq<Param>, p: seq<int>)
    requires |p| >= Arity(k)
    ensures forall e :: e in RemoveFirst(k, s, p) ==> e in s
    ensures forall e :: e in s && !Matches(k, e, p) ==> e in RemoveFirst(k, s, p)
    ensures IsSubsequence(RemoveFirst(k, s, p), s)
  {
    var i := FirstMatch(k, s, p, 0);
    if i == |s| {
      SubsequenceRefl(s);
    } else {
      assert NoMatch(k, s[..i], p);
      assert RemoveFirst(k, s, p) == s[..i] + s[i + 1..];
      CutMembers(s, i);
      CutSubsequence(s, i);
      forall e | e in s && !Matches(k, e, p)
        ensures e in RemoveFirst(k, s, p)
      {
        var j :| 0 <= j < |s| && s[j] == e;
        assert j != i;
      }
    }
  }

  /** Cutting entry `i` out of `s` keeps exactly the other entries. */
  lemma CutMembers(s: seq<Param>, i: nat)
    requires i < |s|
    ensures forall e :: e in s[..i] + s[i + 1..] ==> e in s
    ensures forall j :: 0 <= j < |s| && j != i ==> s[j] in s[..i] + s[i + 1..]
  {
    var r := s[..i] + s[i + 1..];
    forall j | 0 <= j < |s| && j != i
      ensures s[j] in r
    {
      if j < i {
        assert r[j] == s[j];
      } else {
        assert r[j - 1] == s[j];
      }
    }
  }

  // -------------------------------------------------------------- all matches

  /** The entries of `s` for which `drop` is false, in their original order. */
  function Keep(s: seq<Param>, drop: Param -> bool): (r: seq<Param>)
    ensures |r| <= |s|
    decreases |s|
  {
    if |s| == 0 then []
    else (if drop(s[0]) then [] else [s[0]]) + Keep(s[1..], drop)
  }

  /** An entry survives exactly when it is in the input and not dropped. */
  lemma {:induction false} KeepMembers(s: seq<Param>, drop: Param -> bool)
    ensures forall e :: e in Keep(s, drop) <==> e in s && !drop(e)
    decreases |s|
  {
    if |s| > 0 {
      KeepMembers(s[1..], drop);
      assert s == [s[0]] + s[1..];
    }
  }

  /** The matching rule of kind `k` for pattern `p`, as a filter condition. */
  function Matcher(k: Kind, p: seq<int>): Param -> bool
    requires |p| >= Arity(k)
  {
    e => Matches(k, e, p)
  }

  /** Removes every entry matching `p`. */
  function RemoveAll(k: Kind, s: seq<Param>, p: seq<int>): seq<Param>
    requires |p| >= Arity(k)
  {
    Keep(s, Matcher(k, p))
  }

  /** `r` is `s` with some entries left out and the rest in order. */
  predicate IsSubsequence(r: seq<Param>, s: seq<Param>)
    decreases |s|
  {
    if |r| == 0 then true
    else if |s| == 0 then false
    else (r[0] == s[0] && IsSubsequence(r[1..], s[1..])) || IsSubsequence(r, s[1..])
  }

  lemma {:induction false} SubsequenceRefl(s: seq<Param>)
    ensures IsSubsequence(s, s)
    decreases |s|
  {
    if |s| > 0 {
      SubsequenceRefl(s[1..]);
    }
  }

  /** Cutting one entry out leaves a subsequence. */
  lemma {:induction false} CutSubsequence(s: seq<Param>, i: nat)
    requires i < |s|
    ensures IsSubsequence(s[..i] + s[i + 1..], s)
    decreases i
  {
    var r := s[..i] + s[i + 1..];
    if i == 0 {
      assert r == s[1..];
      SubsequenceRefl(s[1..]);
    } else {
      CutSubsequence(s[1..], i - 1);
      assert r[0] == s[0];
      assert r[1..] == s[1..][..i - 1] + s[1..][i..];
    }
  }

  /** A subsequence of a subsequence is a subsequence. */
  lemma {:induction false} SubsequenceTrans(a: seq<Param>, b: seq<Param>, c: seq<Param>)
    requires IsSubsequence(a, b) && IsSubsequence(b, c)
    ensures IsSubsequence(a, c)
    decreases |c|
  {
    if |a| > 0 {
      if b[0] == c[0] && IsSubsequence(b[1..], c[1..]) {
        if a[0] == b[0] && IsSubsequence(a[1..], b[1..]) {
          SubsequenceTrans(a[1..], b[1..], c[1..]);
        } else {
          SubsequenceTrans(a, b[1..], c[1..]);
        }
      } else {
        SubsequenceTrans(a, b, c[1..]);
      }
    }
  }

  /** Filtering distributes over concatenation: the survivors of an earlier
      part precede the survivors of a later part. */
  lemma {:induction false} KeepAppend(s: seq<Param>, t: seq<Param>, drop: Param -> bool)
    ensures Keep(s + t, drop) == Keep(s, drop) + Keep(t, drop)
    decreases |s|
  {
    if |s| == 0 {
      assert s + t == t;
    } else {
      assert (s + t)[1..] == s[1..] + t;
      KeepAppend(s[1..], t, drop);
    }
  }

  /** The survivors form a subsequence of the input. */
  lemma {:induction false} KeepSubsequence(s: seq<Param>, drop: Param -> bool)
    ensures IsSubsequence(Keep(s, drop), s)
    decreases |s|
  {
    if |s| > 0 {
      KeepSubsequence(s[1..], drop);
      var r := Keep(s, drop);
      if !drop(s[0]) {
        assert r[0] == s[0] && r[1..] == Keep(s[1..], drop);
      } else {
        assert r == Keep(s[1..], drop);
      }
    }
  }

  /** Filtering twice is filtering once by either condition. */
  lemma {:induction false} KeepTwice(s: seq<Param>, d1: Param -> bool, d2: Param -> bool, d: Param -> bool)
    requires forall e :: d(e) == (d1(e) || d2(e))
    ensures Keep(Keep(s, d1), d2) == Keep(s, d)
    decreases |s|
  {
    if |s| > 0 {
      KeepTwice(s[1..], d1, d2, d);
      var t := Keep(s[1..], d1);
      if !d1(s[0]) {
        assert Keep(s, d1) == [s[0]] + t;
        assert ([s[0]] + t)[1..] == t;
      } else {
        assert Keep(s, d1) == t;
      }
    }
  }

  /** The survivors of a filter are exactly the entries the filter keeps:
      nothing kept is dropped by a second pass. */
  lemma {:induction false} KeepIdempotent(s: seq<Param>, drop: Param -> bool)
    ensures Keep(Keep(s, drop), drop) == Keep(s, drop)
    decreases |s|
  {
    if |s| > 0 {
      KeepIdempotent(s[1..], drop);
      var t := Keep(s[1..], drop);
      if !drop(s[0]) {
        assert Keep(s, drop) == [s[0]] + t;
        assert ([s[0]] + t)[0] == s[0] && ([s[0]] + t)[1..] == t;
        assert Keep([s[0]] + t, drop) == [s[0]] + Keep(t, drop);
      } else {
        assert Keep(s, drop) == t;
      }
    }
  }

  /** Count of entries matching `p`. */
  function CountMatches(k: Kind, s: seq<Param>, p: seq<int>): nat
    requires |p| >= Arity(k)
    decreases |s|
  {
    if |s| == 0 then 0 else (if Matches(k, s[0], p) then 1 else 0) + CountMatches(k, s[1..], p)
  }

  /** Counting distributes over concatenation. */
  lemma {:induction false} CountAppend(k: Kind, s: seq<Param>, t: seq<Param>, p: seq<int>)
    requires |p| >= Arity(k)
    ensures CountMatches(k, s + t, p) == CountMatches(k, s, p) + CountMatches(k, t, p)
    decreases |s|
  {
    if |s| == 0 {
      assert s + t == t;
    } else {
      assert (s + t)[0] == s[0] && (s + t)[1..] == s[1..] + t;
      CountAppend(k, s[1..], t, p);
    }
  }

  /** Some entry matches exactly when the count is positive. */
  lemma {:induction false} CountPositive(k: Kind, s: seq<Param>, p: seq<int>)
    requires |p| >= Arity(k)
    ensures CountMatches(k, s, p) > 0 <==> !NoMatch(k, s, p)
    decreases |s|
  {
    if |s| > 0 {
      CountPositive(k, s[1..], p);
      if !Matches(k, s[0], p) && !NoMatch(k, s, p) {
        var j :| 0 <= j < |s| && Matches(k, s[j], p);
        assert s[1..][j - 1] == s[j];
      }
    }
  }

  /** One fewer, but never below zero. */
  function OneFewer(n: nat): nat {
    if n > 0 then n - 1 else 0
  }

  /** Removing the first match of `p`: the count for any pattern `q` loses
      exactly that entry's contribution. */
  lemma CountRemoveFirst(k: Kind, s: seq<Param>, p: seq<int>, q: seq<int>)
    requires |p| >= Arity(k) && |q| >= Arity(k)
    ensures var i := FirstMatch(k, s, p, 0);
            i < |s| ==> CountMatches(k, RemoveFirst(k, s, p), q) ==
                        CountMatches(k, s, q) - (if Matches(k, s[i], q) then 1 else 0)
  {
    var i := FirstMatch(k, s, p, 0);
    if i < |s| {
      assert NoMatch(k, s[..i], p);
      assert RemoveFirst(k, s, p) == s[..i] + s[i + 1..];
      CountCut(k, s, i, q);
    }
  }

  /** Cutting entry `i` out of a list lowers any count by that entry's share. */
  lemma CountCut(k: Kind, s: seq<Param>, i: nat, q: seq<int>)
    requires i < |s| && |q| >= Arity(k)
    ensures CountMatches(k, s[..i] + s[i + 1..], q) == CountMatches(k, s, q) - (if Matches(k, s[i], q) then 1 else 0)
  {
    var u, v, w := s[..i], [s[i]] + s[i + 1..], s[i + 1..];
    assert s == u + v;
    CountAppend(k, u, w, q);
    CountAppend(k, u, v, q);
    assert v[0] == s[i] && v[1..] == w;
  }

  /** The first-match deletion of `p` lowers the count for `p` by one, if
      there was a match. */
  lemma CountRemoveFirstSame(k: Kind, s: seq<Param>, p: seq<int>)
    requires |p| >= Arity(k)
    ensures CountMatches(k, RemoveFirst(k, s, p), p) == OneFewer(CountMatches(k, s, p))
  {
    CountRemoveFirst(k, s, p, p);
    CountPositive(k, s, p);
  }

  /** ... and leaves the count for a pattern `q` that no entry can match
      together with `p` unchanged. */
  lemma CountRemoveFirstOther(k: Kind, s: seq<Param>, p: seq<int>, q: seq<int>)
    requires |p| >= Arity(k) && |q| >= Arity(k)
    requires forall e :: Matches(k, e, p) ==> !Matches(k, e, q)
    ensures CountMatches(k, RemoveFirst(k, s, p), q) == CountMatches(k, s, q)
  {
    CountRemoveFirst(k, s, p, q);
  }

  /** Removing all matches shortens the list by exactly the number of matches. */
  lemma {:induction false} RemoveAllLength(k: Kind, s: seq<Param>, p: seq<int>)
    requires |p| >= Arity(k)
    ensures |RemoveAll(k, s, p)| == |s| - CountMatches(k, s, p)
    decreases |s|
  {
    if |s| > 0 {
      RemoveAllLength(k, s[1..], p);
    }
  }

  /** `r` is dihedral list `s` with every entry matching `p` taken out and
      nothing else: the survivors are exactly the non-matching entries, in
      their old order, each as often as before (the length drops by the
      number of matches). */
  ghost predicate Stripped(k: Kind, s: seq<Param>, r: seq<Param>, p: seq<int>)
    requires k == PDihs || k == RBDihs
    requires |p| >= 4
  {
    && (forall e :: e in r <==> e in s && !DihedralMatch(e, p))
    && IsSubsequence(r, s)
    && |r| == |s| - CountMatches(k, s, p)
  }

  // ------------------------------------------------------ the editor itself

  /** `delete_params`: bonds and angles lose their first match, proper and
      Ryckaert-Bellemans dihedrals lose every match, every other kind is
      reported and left alone. No other list changes. */
  function DeleteParams(pl: ParamLists, k: Kind, p: seq<int>): (r: ParamLists)
    requires |p| >= Arity(k)
    ensures forall k' :: k' != k ==> r.Get(k') == pl.Get(k')
    ensures FirstOnly(k) ==> r.Get(k) == RemoveFirst(k, pl.Get(k), p)
    ensures (k == PDihs || k == RBDihs) ==> Stripped(k, pl.Get(k), r.Get(k), p)
    ensures !Editable(k) ==> r == pl
  {
    match k
    case Bonds => pl.Set(k, RemoveFirst(k, pl.Get(k), p))
    case Angles => pl.Set(k, RemoveFirst(k, pl.Get(k), p))
    case PDihs =>
      KeepMembers(pl.Get(k), Matcher(k, p));
      KeepSubsequence(pl.Get(k), Matcher(k, p));
      RemoveAllLength(k, pl.Get(k), p);
      pl.Set(k, RemoveAll(k, pl.Get(k), p))
    case RBDihs =>
      KeepMembers(pl.Get(k), Matcher(k, p));
      KeepSubsequence(pl.Get(k), Matcher(k, p));
      RemoveAllLength(k, pl.Get(k), p);
      pl.Set(k, RemoveAll(k, pl.Get(k), p))
    case _ => pl
  }

  // --------------------------------------------- in-place compaction loops

  /** Removes list entry `j` by shifting every later entry down one slot. */
  function ShiftDown(s: seq<Param>, j: nat): (r: seq<Param>)
    requires j < |s|
    ensures |r| == |s| - 1
    ensures forall i :: 0 <= i < j ==> r[i] == s[i]
    ensures forall i :: j <= i < |r| ==> r[i] == s[i + 1]
  {
    s[..j] + s[j + 1..]
  }

  /** The bond and angle loop: scan for a match, shift the tail over it and stop. */
  method DeleteFirstInPlace(k: Kind, s: seq<Param>, p: seq<int>) returns (r: seq<Param>)
    requires FirstOnly(k) && |p| >= Arity(k)
    ensures r == RemoveFirst(k, s, p)
  {
    r := s;
    var j := 0;
    while j < |r|
      invariant 0 <= j <= |r| == |s| && r == s
      invariant NoMatch(k, s[..j], p)
    {
      if Matches(k, r[j], p) {
        r := ShiftDown(r, j);
        assert s[..j] == s[..j][..j];
        return;
      }
      assert s[..j + 1] == s[..j] + [s[j]];
      j := j + 1;
    }
    assert s[..j] == s;
  }

  /** The dihedral loop: on a match, shift the tail over it and examine the
      same slot again; otherwise move on. */
  method DeleteAllInPlace(k: Kind, s: seq<Param>, p: seq<int>) returns (r: seq<Param>)
    requires (k == PDihs || k == RBDihs) && |p| >= Arity(k)
    ensures r == RemoveAll(k, s, p)
  {
    var drop := Matcher(k, p);
    r := s;
    var j := 0;
    ghost var i := 0;
    while j < |r|
      invariant 0 <= i <= |s| && 0 <= j <= |r|
      invariant r == Keep(s[..i], drop) + s[i..]
      invariant j == |Keep(s[..i], drop)|
      decreases |s| - i
    {
      CompactStep(s, i, r, drop);
      if drop(r[j]) {
        r := ShiftDown(r, j);
      } else {
        j := j + 1;
      }
      i := i + 1;
    }
    assert |s[i..]| == 0 && s[..i] == s;
  }

  /** One step of the dihedral loop: the slot under examination holds the
      next unexamined input entry, and dropping or skipping it restores the
      loop's shape for a prefix one entry longer. */
  lemma CompactStep(s: seq<Param>, i: nat, r: seq<Param>, drop: Param -> bool)
    requires i < |s| && r == Keep(s[..i], drop) + s[i..]
    ensures |Keep(s[..i], drop)| < |r| && r[|Keep(s[..i], drop)|] == s[i]
    ensures drop(s[i]) ==> ShiftDown(r, |Keep(s[..i], drop)|) == Keep(s[..i + 1], drop) + s[i + 1..]
    ensures !drop(s[i]) ==> r == Keep(s[..i + 1], drop) + s[i + 1..]
    ensures !drop(s[i]) ==> |Keep(s[..i + 1], drop)| == |Keep(s[..i], drop)| + 1
  {
    var kept := Keep(s[..i], drop);
    KeepStep(s, i, drop);
    assert s[i..] == [s[i]] + s[i + 1..];
    assert r == kept + ([s[i]] + s[i + 1..]);
    if drop(s[i]) {
      assert ShiftDown(r, |kept|) == kept + s[i + 1..];
    } else {
      assert r == (kept + [s[i]]) + s[i + 1..];
    }
  }

  /** Extending the examined prefix by one entry extends the survivors by
      that entry exactly when it is kept. */
  lemma KeepStep(s: seq<Param>, i: nat, drop: Param -> bool)
    requires i < |s|
    ensures Keep(s[..i + 1], drop) == Keep(s[..i], drop) + (if drop(s[i]) then [] else [s[i]])
  {
    assert s[..i + 1] == s[..i] + [s[i]];
    KeepAppend(s[..i], [s[i]], drop);
    assert [s[i]][1..] == [];
  }
}

=== FILE: reducer.dfy ===
/** The rigid-group reducer (`calc_vsite2parm`): replaces a linear chain by
    an anchor mass on its first atom plus one new mass particle on the
    chain's line, joined by a constraint, and rebuilds the other chain atoms
    as two-particle virtual sites on that line. */
module Reducer {
  import opened Topology
  import opened Registry
  import opened Outcomes

  /** The chain as the reducer sees it: the masses of atoms 0..3 and the
      arc lengths of atoms 1..3 measured from atom 0 along the chain. A
      triple has `mL == rD == 0`. */
  datatype Chain = Chain(mI: real, mJ: real, mK: real, mL: real, rB: real, rC: real, rD: real)

  function TotalOf(c: Chain): real {
    c.mI + c.mJ + c.mK + c.mL
  }

  /** First moment of the chain's masses about atom 0. */
  function FirstMoment(c: Chain): real {
    c.mJ * c.rB + c.mK * c.rC + c.mL * c.rD
  }

  /** Second moment of the chain's masses about atom 0. */
  function SecondMoment(c: Chain): real {
    c.mJ * c.rB * c.rB + c.mK * c.rC * c.rC + c.mL * c.rD * c.rD
  }

  /** Moment of inertia about the centre of mass `com`. */
  function Inertia(c: Chain, com: real): real {
    c.mI * (com * com) + c.mJ * ((c.rB - com) * (c.rB - com)) +
    c.mK * ((c.rC - com) * (c.rC - com)) + c.mL * ((c.rD - com) * (c.rD - com))
  }

  /** None of the reducer's three divisors is zero. */
  predicate Solvable(c: Chain) {
    var mT := TotalOf(c);
    mT != 0.0 &&
    (var com := FirstMoment(c) / mT;
     com != 0.0 && com + Inertia(c, com) / (com * mT) != 0.0)
  }

  /** The reducer's intermediate quantities: total mass, centre of mass,
      inertia, distance and mass of the new particle, new anchor mass. */
  datatype Split = Split(mT: real, com: real, inertia: real, rVV: real, mV: real, anchor: real)

  /** The mass algebra: the new particle carries the chain's first moment
      about atom 0, and anchor plus particle weigh as much as atoms 1..3. */
  function Solve(c: Chain): (s: Split)
    requires Solvable(c)
    ensures s.mT == TotalOf(c)
    ensures s.com * s.mT == FirstMoment(c)
    ensures s.mV * s.rVV == s.com * s.mT
    ensures s.anchor + s.mV == c.mJ + c.mK + c.mL
    ensures s.mV != 0.0 && s.rVV != 0.0
  {
    var mT := TotalOf(c);
    var com := FirstMoment(c) / mT;
    var inertia := Inertia(c, com);
    var rVV := com + inertia / (com * mT);
    var mV := com * mT / rVV;
    Split(mT, com, inertia, rVV, mV, c.mJ + c.mK + c.mL - mV)
  }

  /** The new particle at `rVV` also carries the chain's second moment about
      atom 0, so the anchor and the particle reproduce both moments. */
  lemma SecondMomentKept(c: Chain)
    requires Solvable(c)
    ensures Solve(c).mV * Solve(c).rVV * Solve(c).rVV == SecondMoment(c)
  {
    var s := Solve(c);
    var mT, com, rVV := s.mT, s.com, s.rVV;
    var q := Inertia(c, com);
    assert q == SecondMoment(c) - 2.0 * com * FirstMoment(c) + com * com * mT by {
      InertiaExpanded(c, com);
    }
    assert q == SecondMoment(c) - com * com * mT;
    assert com * mT * (q / (com * mT)) == q;
    calc {
      s.mV * rVV * rVV;
      com * mT * rVV;
      com * mT * (com + q / (com * mT));
      com * mT * com + q;
      SecondMoment(c);
    }
  }

  lemma InertiaExpanded(c: Chain, com: real)
    ensures Inertia(c, com) ==
              SecondMoment(c) - 2.0 * com * FirstMoment(c) + com * com * TotalOf(c)
  {
  }

  // ----------------------------------------------------- topology rewrite

  /** Arc length of chain atom `i` from atom 0. */
  function Arc(c: Chain, i: int): real {
    if i == 1 then c.rB else if i == 2 then c.rC else if i == 3 then c.rD else 0.0
  }

  /** What the C code needs before it indexes arrays: a coordinate per atom,
      at most four chain atoms, and (for a live group) chain atoms that are
      atoms of the topology. */
  predicate Indexed(t: Topology, g: LinearGroup) {
    && |t.x| == |t.atoms|
    && g.nline <= 4
    && (g.nline > 0 ==>
          && 0 <= g.a[0] < |t.atoms| && 0 <= g.a[1] < |t.atoms| && 0 <= g.a[2] < |t.atoms|
          && (g.nline == 4 ==> 0 <= g.a[3] < |t.atoms|))
  }

  /** Masses and arc lengths read from the topology; `norm` is the length
      of a coordinate difference. */
  function ChainOf(t: Topology, g: LinearGroup, norm: Vec3 -> real): (c: Chain)
    requires Indexed(t, g) && g.nline > 0
    ensures c.mI == t.atoms[g.a[0]].m && c.mJ == t.atoms[g.a[1]].m && c.mK == t.atoms[g.a[2]].m
    ensures c.rB == norm(Sub(t.x[g.a[0]], t.x[g.a[1]]))
    ensures c.rC - c.rB == norm(Sub(t.x[g.a[1]], t.x[g.a[2]]))
    ensures g.nline == 4 ==>
              c.mL == t.atoms[g.a[3]].m && c.rD - c.rC == norm(Sub(t.x[g.a[2]], t.x[g.a[3]]))
    ensures g.nline != 4 ==> c.mL == 0.0 && c.rD == 0.0
  {
    var rB := norm(Sub(t.x[g.a[0]], t.x[g.a[1]]));
    var rC := rB + norm(Sub(t.x[g.a[1]], t.x[g.a[2]]));
    var mI, mJ, mK := t.atoms[g.a[0]].m, t.atoms[g.a[1]].m, t.atoms[g.a[2]].m;
    if g.nline == 4 then
      Chain(mI, mJ, mK, t.atoms[g.a[3]].m, rB, rC, rC + norm(Sub(t.x[g.a[2]], t.x[g.a[3]])))
    else
      Chain(mI, mJ, mK, 0.0, rB, rC, 0.0)
  }

  predicate Reducible(t: Topology, g: LinearGroup, norm: Vec3 -> real) {
    Indexed(t, g) && (g.nline > 0 ==> Solvable(ChainOf(t, g, norm)))
  }

  /** The entries every list other than the constraint and virtual-site lists keep. */
  predicate OtherListsKept(p: ParamLists, q: ParamLists) {
    forall k :: k != Constr && k != VSite2 ==> q.Get(k) == p.Get(k)
  }

  /** `calc_vsite2parm` for a live group: one new mass particle appended,
      masses rewritten, one constraint and `nline - 1` virtual sites
      appended. A dead group changes nothing; a non-positive anchor mass is fatal. */
  function Reduce(t: Topology, g: LinearGroup, norm: Vec3 -> real, mlType: int): (r: Result<Topology>)
    requires Reducible(t, g, norm)
    ensures g.nline <= 0 ==> r == Success(t)
    ensures g.nline > 0 ==> (r.Failure? <==> Solve(ChainOf(t, g, norm)).anchor <= 0.0)
    ensures g.nline > 0 && r.Failure? ==> r.error == NonPositiveMass(Solve(ChainOf(t, g, norm)).anchor)
    ensures g.nline > 0 && r.Success? ==>
              Reshaped(t, r.value, g, ChainOf(t, g, norm), Solve(ChainOf(t, g, norm)).rVV)
    ensures g.nline > 0 && r.Success? ==> NewParticle(t, r.value, g, Solve(ChainOf(t, g, norm)), mlType)
  {
    if g.nline <= 0 then Success(t)
    else
      var c := ChainOf(t, g, norm);
      var s := Solve(c);
      if s.anchor <= 0.0 then Failure(NonPositiveMass(s.anchor))
      else Success(ReduceLive(t, g, c, s, mlType))
  }

  /** The shape of a reduced topology `r` for chain `g` of `t`: exactly one
      atom and one coordinate appended (old coordinates kept), one
      constraint of length `rVV` from the anchor to the new atom appended,
      and the chain's virtual sites appended. Every other list and the
      exclusions are unchanged. */
  predicate Reshaped(t: Topology, r: Topology, g: LinearGroup, c: Chain, rVV: real)
    requires 0 < g.nline <= 4
  {
    && Appended(t, r, g, c, rVV)
    && r.excls == t.excls
    && OtherListsKept(t.plist, r.plist)
  }

  /** The additions of a reduction: one atom, one coordinate (old ones
      kept), one constraint of length `rVV` from the anchor to the new atom,
      and the chain's virtual sites. */
  predicate Appended(t: Topology, r: Topology, g: LinearGroup, c: Chain, rVV: real)
    requires 0 < g.nline <= 4
  {
    var n := |t.atoms|;
    && |r.atoms| == n + 1
    && |r.x| == n + 1 && r.x[..n] == t.x
    && r.plist.constr == t.plist.constr + [Param([g.a[0], n, 0, 0], [rVV])]
    && SitesAppended(t.plist.vsite2, r.plist.vsite2, g, n, c, rVV)
  }

  /** The mass side of a reduction of `t` with solution `s`: the chain's
      masses rewritten as `RewriteMasses` states, and a new particle of mass
      `mV`, atomic number 0 and type `mlType` appended, placed so that `mV`
      times its coordinate is the mass-weighted sum of the coordinates of
      chain atoms 1 and 2. */
  predicate NewParticle(t: Topology, r: Topology, g: LinearGroup, s: Split, mlType: int)
    requires Indexed(t, g) && g.nline > 0
  {
    var n := |t.atoms|;
    && |r.atoms| == n + 1 && |r.x| == n + 1
    && r.atoms[..n] == RewriteMasses(t.atoms, g, s.anchor)
    && r.atoms[n] == Atom(s.mV, s.mV, 0, mlType, mlType)
    && Scale(s.mV, r.x[n]) == Add(Scale(t.atoms[g.a[1]].m, t.x[g.a[1]]), Scale(t.atoms[g.a[2]].m, t.x[g.a[2]]))
  }

  /** `v` is `u` followed by the chain's virtual sites. */
  predicate SitesAppended(u: seq<Param>, v: seq<Param>, g: LinearGroup, n: int, c: Chain, rVV: real)
    requires 0 < g.nline <= 4
  {
    |v| >= |u| && v[..|u|] == u && ChainSites(v[|u|..], g, n, c, rVV)
  }

  /** One virtual site per chain atom after the anchor, in chain order, each
      placing that atom at its arc length from the anchor (fraction
      `arc / rVV` of the way to the new atom `n`). */
  predicate ChainSites(w: seq<Param>, g: LinearGroup, n: int, c: Chain, rVV: real)
    requires 0 < g.nline <= 4
  {
    && |w| == g.nline - 1
    && forall i :: 1 <= i < g.nline ==>
         && w[i - 1].a == [g.a[i], g.a[0], n, 0]
         && |w[i - 1].c| == 1 && w[i - 1].c[0] * rVV == Arc(c, i)
  }

  /** Appending the records of `VsiteRecords` appends the chain's sites. */
  lemma SitesOfRecords(u: seq<Param>, g: LinearGroup, n: int, c: Chain, rVV: real)
    requires 0 < g.nline <= 4 && rVV != 0.0
    ensures SitesAppended(u, u + VsiteRecords(g, n, c, rVV), g, n, c, rVV)
  {
    var w := VsiteRecords(g, n, c, rVV);
    assert (u + w)[..|u|] == u && (u + w)[|u|..] == w;
  }

  /** The rewrite of a live group once the anchor mass is known to be positive. */
  function ReduceLive(t: Topology, g: LinearGroup, c: Chain, s: Split, mlType: int): (r: Topology)
    requires Indexed(t, g) && g.nline > 0 && s.mV != 0.0 && s.rVV != 0.0
    ensures Reshaped(t, r, g, c, s.rVV)
    ensures NewParticle(t, r, g, s, mlType)
  {
    var n := |t.atoms|;
    var atoms := RewriteMasses(t.atoms, g, s.anchor) + [Atom(s.mV, s.mV, 0, mlType, mlType)];
    var vsites := VsiteRecords(g, n, c, s.rVV);
    var plist := t.plist.(constr := t.plist.constr + [Param([g.a[0], n, 0, 0], [s.rVV])],
                          vsite2 := t.plist.vsite2 + vsites);
    SitesOfRecords(t.plist.vsite2, g, n, c, s.rVV);
    NewCoordinateWeights(t, g, s.mV);
    assert atoms[..n] == RewriteMasses(t.atoms, g, s.anchor);
    Topology(atoms, t.x + [NewCoordinate(t, g, s.mV)], plist, t.excls)
  }

  /** The mass rewrites in the order the C code applies them: the anchor
      first, then chain atoms 1 and 2 (a fourth atom keeps its mass). */
  function RewriteMasses(atoms: seq<Atom>, g: LinearGroup, anchor: real): (r: seq<Atom>)
    requires 0 <= g.a[0] < |atoms| && 0 <= g.a[1] < |atoms| && 0 <= g.a[2] < |atoms|
    ensures |r| == |atoms|
    ensures r[g.a[1]] == WithMass(atoms[g.a[1]], 0.0) && r[g.a[2]] == WithMass(atoms[g.a[2]], 0.0)
    ensures r[g.a[0]] == WithMass(atoms[g.a[0]], if g.a[0] == g.a[1] || g.a[0] == g.a[2] then 0.0 else anchor)
    ensures forall k :: 0 <= k < |atoms| && k != g.a[0] && k != g.a[1] && k != g.a[2] ==> r[k] == atoms[k]
  {
    var m0 := atoms[g.a[0] := WithMass(atoms[g.a[0]], anchor)];
    var m1 := m0[g.a[1] := WithMass(m0[g.a[1]], 0.0)];
    m1[g.a[2] := WithMass(m1[g.a[2]], 0.0)]
  }

  /** The new particle's coordinate, accumulated over chain atoms 1 and 2
      from the origin with weights `m / mV`. */
  function NewCoordinate(t: Topology, g: LinearGroup, mV: real): Vec3
    requires Indexed(t, g) && g.nline > 0 && mV != 0.0
  {
    var a1, a2 := g.a[1], g.a[2];
    Add(Add(Origin, Scale(t.atoms[a1].m / mV, t.x[a1])), Scale(t.atoms[a2].m / mV, t.x[a2]))
  }

  /** One two-particle virtual site per chain atom after the anchor, built
      from the anchor and the new particle at fraction `arc / rVV` of the way. */
  function VsiteRecords(g: LinearGroup, n: int, c: Chain, rVV: real): (v: seq<Param>)
    requires 0 < g.nline <= 4 && rVV != 0.0
    ensures ChainSites(v, g, n, c, rVV)
  {
    var ac := [0.0, c.rB / rVV, c.rC / rVV, c.rD / rVV];
    seq(g.nline - 1, k requires 0 <= k < g.nline - 1 => Param([g.a[k + 1], g.a[0], n, 0], [ac[k + 1]]))
  }

  /** Three distinct atoms. */
  predicate Distinct3(i: int, j: int, k: int) {
    i != j && j != k && i != k
  }

  /** Mass rewrites of a successful reduction: atoms 1 and 2 of the chain
      become massless, the anchor gets `mJ + mK + mL - mV` (so anchor and
      particle weigh what atoms 1..3 weighed, and the anchor's own mass `mI`
      is not carried over), the new particle gets `mV` and the auxiliary
      type, and every other atom, including a fourth chain atom, is unchanged. */
  lemma ReduceMasses(t: Topology, g: LinearGroup, norm: Vec3 -> real, mlType: int)
    requires Reducible(t, g, norm) && g.nline > 0 && Reduce(t, g, norm, mlType).Success?
    requires Distinct3(g.a[0], g.a[1], g.a[2])
    ensures var c := ChainOf(t, g, norm);
            var s := Solve(c);
            var n := |t.atoms|;
            var at := Reduce(t, g, norm, mlType).value.atoms;
            && at[n] == Atom(s.mV, s.mV, 0, mlType, mlType)
            && at[g.a[1]] == t.atoms[g.a[1]].(m := 0.0, mB := 0.0)
            && at[g.a[2]] == t.atoms[g.a[2]].(m := 0.0, mB := 0.0)
            && at[g.a[0]] == t.atoms[g.a[0]].(m := s.anchor, mB := s.anchor)
            && at[g.a[0]].m > 0.0
            && at[g.a[0]].m + at[n].m == c.mJ + c.mK + c.mL
            && forall k :: 0 <= k < n && k != g.a[0] && k != g.a[1] && k != g.a[2] ==> at[k] == t.atoms[k]
  {
  }

  /** The new particle sits at the centre of mass of chain atoms 1 and 2
      weighted by their masses and divided by `mV`:
      `mV * x_new == mJ * x_J + mK * x_K`. */
  lemma ReduceCoordinate(t: Topology, g: LinearGroup, norm: Vec3 -> real, mlType: int)
    requires Reducible(t, g, norm) && g.nline > 0 && Reduce(t, g, norm, mlType).Success?
    ensures var c := ChainOf(t, g, norm);
            var xn := Reduce(t, g, norm, mlType).value.x[|t.atoms|];
            Scale(Solve(c).mV, xn) == Add(Scale(c.mJ, t.x[g.a[1]]), Scale(c.mK, t.x[g.a[2]]))
  {
    var c := ChainOf(t, g, norm);
    assert c.mJ == t.atoms[g.a[1]].m && c.mK == t.atoms[g.a[2]].m;
    NewCoordinateWeights(t, g, Solve(c).mV);
  }

  /** `mV * NewCoordinate == m1 * x1 + m2 * x2`, for any non-zero `mV`. */
  lemma NewCoordinateWeights(t: Topology, g: LinearGroup, mV: real)
    requires Indexed(t, g) && g.nline > 0 && mV != 0.0
    ensures Scale(mV, NewCoordinate(t, g, mV)) ==
            Add(Scale(t.atoms[g.a[1]].m, t.x[g.a[1]]), Scale(t.atoms[g.a[2]].m, t.x[g.a[2]]))
  {
    var m1, m2 := t.atoms[g.a[1]].m, t.atoms[g.a[2]].m;
    var xj, xk := t.x[g.a[1]], t.x[g.a[2]];
    WeightBack(mV, m1, m2, xj.x, xk.x);
    WeightBack(mV, m1, m2, xj.y, xk.y);
    WeightBack(mV, m1, m2, xj.z, xk.z);
  }

  lemma WeightBack(mV: real, a: real, b: real, u: real, v: real)
    requires mV != 0.0
    ensures mV * ((0.0 + a / mV * u) + b / mV * v) == a * u + b * v
  {
    assert mV * (a / mV) == a && mV * (b / mV) == b;
  }

  /** Total mass is NOT conserved: with three distinct leading atoms a
      reduction changes the total by `mL - mI`, that is it loses the anchor's
      original mass and counts a fourth chain atom's mass twice. */
  lemma ReduceTotalMass(t: Topology, g: LinearGroup, norm: Vec3 -> real, mlType: int)
    requires Reducible(t, g, norm) && g.nline > 0 && Reduce(t, g, norm, mlType).Success?
    requires Distinct3(g.a[0], g.a[1], g.a[2])
    ensures var c := ChainOf(t, g, norm);
            TotalMass(Reduce(t, g, norm, mlType).value.atoms) == TotalMass(t.atoms) - c.mI + c.mL
  {
    var c := ChainOf(t, g, norm);
    var s := Solve(c);
    var a0, a1, a2 := g.a[0], g.a[1], g.a[2];
    var m0 := t.atoms[a0 := WithMass(t.atoms[a0], s.anchor)];
    var m1 := m0[a1 := WithMass(m0[a1], 0.0)];
    var m2 := m1[a2 := WithMass(m1[a2], 0.0)];
    assert m2 == RewriteMasses(t.atoms, g, s.anchor);
    TotalMassUpdate(t.atoms, a0, WithMass(t.atoms[a0], s.anchor));
    TotalMassUpdate(m0, a1, WithMass(m0[a1], 0.0));
    TotalMassUpdate(m1, a2, WithMass(m1[a2], 0.0));
    var newAtom := Atom(s.mV, s.mV, 0, mlType, mlType);
    TotalMassAppend(m2, newAtom);
    assert Reduce(t, g, norm, mlType).value.atoms == m2 + [newAtom];
  }
}

=== FILE: registry.dfy ===
/** The geometry registry: the generation mode and the linear and planar
    atom groups found by the caller, registered without duplicates. */
module Registry {
  import opened Topology

  /** Generation modes (`egvt`). Only their order matters to the model: `No`
      is the lowest and `Nr` is one past the highest. */
  const EgvtNo: int := 0
  const EgvtLinear: int := 1
  const EgvtPlanar: int := 2
  const EgvtAll: int := 3
  const EgvtNr: int := 4

  /** Value of a field the registration code leaves unwritten. */
  const Unset: int := -1

  /** A linear chain `a[0..nline-1]`; `nline == 0` marks a group absorbed by a merge. */
  datatype LinearGroup = LinearGroup(nline: int, a: Quad)

  /** A planar group: four atoms and each atom's bond count when it was registered. */
  datatype PlanarGroup = PlanarGroup(a: Quad, nb: Quad)

  datatype Registry = Registry(egvt: int, lin: seq<LinearGroup>, plan: seq<PlanarGroup>)

  predicate LinearOn(egvt: int) {
    egvt == EgvtLinear || egvt == EgvtAll
  }

  predicate PlanarOn(egvt: int) {
    egvt == EgvtPlanar || egvt == EgvtAll
  }

  /** `gentop_vsite_init`: an empty registry whose mode is clamped to the
      known modes, an unknown mode falling back to `No`. */
  function Init(egvt: int): (r: Registry)
    ensures EgvtNo <= r.egvt < EgvtNr
    ensures EgvtNo <= egvt < EgvtNr ==> r.egvt == egvt
    ensures !(EgvtNo <= egvt < EgvtNr) ==> r.egvt == EgvtNo
    ensures r.lin == [] && r.plan == []
  {
    Registry(if egvt < EgvtNo || egvt >= EgvtNr then EgvtNo else egvt, [], [])
  }

  // ---------------------------------------------------------------- linear

  /** The duplicate test of linear registration: the same middle atom and
      either the same outer atoms, or a stored first atom equal to the new
      middle atom together with a stored last atom equal to the new first. */
  predicate SameLinear(g: LinearGroup, ai: int, aj: int, ak: int) {
    g.a[1] == aj && ((g.a[0] == ai && g.a[2] == ak) || (g.a[0] == aj && g.a[2] == ai))
  }

  predicate IsNewLinear(lin: seq<LinearGroup>, ai: int, aj: int, ak: int) {
    forall i :: 0 <= i < |lin| ==> !SameLinear(lin[i], ai, aj, ak)
  }

  /** The entry a new linear registration appends. */
  function NewLinear(ai: int, aj: int, ak: int): LinearGroup {
    LinearGroup(Unset, [ai, aj, ak, Unset])
  }

  /** The scan of linear registration: the first index from `from` on that
      holds a duplicate, or `|lin|` when there is none. */
  function FindLinear(lin: seq<LinearGroup>, ai: int, aj: int, ak: int, from: nat): (i: nat)
    requires from <= |lin|
    ensures from <= i <= |lin|
    ensures forall k :: from <= k < i ==> !SameLinear(lin[k], ai, aj, ak)
    ensures i < |lin| ==> SameLinear(lin[i], ai, aj, ak)
    decreases |lin| - from
  {
    if from == |lin| || SameLinear(lin[from], ai, aj, ak) then from
    else FindLinear(lin, ai, aj, ak, from + 1)
  }

  /** `gentop_vsite_add_linear`: appends the triple unless a duplicate is stored. */
  function AddLinear(r: Registry, ai: int, aj: int, ak: int): (r': Registry)
    ensures r'.egvt == r.egvt && r'.plan == r.plan
    ensures !IsNewLinear(r.lin, ai, aj, ak) ==> r'.lin == r.lin
    ensures IsNewLinear(r.lin, ai, aj, ak) ==> r'.lin == r.lin + [NewLinear(ai, aj, ak)]
  {
    if FindLinear(r.lin, ai, aj, ak, 0) == |r.lin| then r.(lin := r.lin + [NewLinear(ai, aj, ak)])
    else r
  }

  /** After registration the triple is stored (possibly as an earlier duplicate). */
  lemma AddLinearRegisters(r: Registry, ai: int, aj: int, ak: int)
    ensures !IsNewLinear(AddLinear(r, ai, aj, ak).lin, ai, aj, ak)
  {
    var r' := AddLinear(r, ai, aj, ak);
    if IsNewLinear(r.lin, ai, aj, ak) {
      assert SameLinear(r'.lin[|r.lin|], ai, aj, ak);
    }
  }

  /** Registering the same triple twice is the same as registering it once. */
  lemma AddLinearIdempotent(r: Registry, ai: int, aj: int, ak: int)
    ensures AddLinear(AddLinear(r, ai, aj, ak), ai, aj, ak) == AddLinear(r, ai, aj, ak)
  {
    AddLinearRegisters(r, ai, aj, ak);
  }

  /** The reversed triple is not recognised as a duplicate: registering
      `(ai,aj,ak)` and then `(ak,aj,ai)` stores two groups. */
  lemma ReversedLinearStoredTwice(egvt: int, ai: int, aj: int, ak: int)
    requires ai != ak && ai != aj
    ensures |AddLinear(AddLinear(Init(egvt), ai, aj, ak), ak, aj, ai).lin| == 2
  {
    var r1 := AddLinear(Init(egvt), ai, aj, ak);
    assert r1.lin == [NewLinear(ai, aj, ak)];
    assert !SameLinear(r1.lin[0], ak, aj, ai);
  }

  /** A stored `(aj,aj,ai)` makes every triple `(ai,aj,ak)` a duplicate,
      whatever `ak` is. */
  lemma DegenerateLinearAbsorbs(r: Registry, i: nat, ai: int, aj: int, ak: int)
    requires i < |r.lin| && r.lin[i].a[0] == aj && r.lin[i].a[1] == aj && r.lin[i].a[2] == ai
    ensures AddLinear(r, ai, aj, ak) == r
  {
    assert SameLinear(r.lin[i], ai, aj, ak);
  }

  /** Duplicate test as evidently intended: the same middle atom and the same
      outer atoms in either direction. */
  predicate SameLinearIntended(g: LinearGroup, ai: int, aj: int, ak: int) {
    g.a[1] == aj && ((g.a[0] == ai && g.a[2] == ak) || (g.a[0] == ak && g.a[2] == ai))
  }

  /** Linear registration with the reversed comparison corrected. */
  function AddLinearIntended(r: Registry, ai: int, aj: int, ak: int): (r': Registry)
    ensures r'.egvt == r.egvt && r'.plan == r.plan
    ensures (exists i :: 0 <= i < |r.lin| && SameLinearIntended(r.lin[i], ai, aj, ak)) ==> r' == r
    ensures (forall i :: 0 <= i < |r.lin| ==> !SameLinearIntended(r.lin[i], ai, aj, ak)) ==>
              r'.lin == r.lin + [NewLinear(ai, aj, ak)]
  {
    if exists i :: 0 <= i < |r.lin| && SameLinearIntended(r.lin[i], ai, aj, ak) then r
    else r.(lin := r.lin + [NewLinear(ai, aj, ak)])
  }

  /** With the corrected test, registering a triple and then its reverse
      stores one group. */
  lemma ReversedLinearIntendedStoredOnce(r: Registry, ai: int, aj: int, ak: int)
    ensures AddLinearIntended(AddLinearIntended(r, ai, aj, ak), ak, aj, ai) == AddLinearIntended(r, ai, aj, ak)
  {
    var r1 := AddLinearIntended(r, ai, aj, ak);
    if forall i :: 0 <= i < |r.lin| ==> !SameLinearIntended(r.lin[i], ai, aj, ak) {
      assert SameLinearIntended(r1.lin[|r.lin|], ak, aj, ai);
    } else {
      var i :| 0 <= i < |r.lin| && SameLinearIntended(r.lin[i], ai, aj, ak);
      assert SameLinearIntended(r1.lin[i], ak, aj, ai);
    }
  }

  // ---------------------------------------------------------------- planar

  /** The duplicate test of planar registration: the same quadruple, or the
      same quadruple fully reversed. */
  predicate SamePlanar(g: PlanarGroup, ai: int, aj: int, ak: int, al: int) {
    (g.a[0] == ai && g.a[1] == aj && g.a[2] == ak && g.a[3] == al) ||
    (g.a[0] == al && g.a[1] == ak && g.a[2] == aj && g.a[3] == ai)
  }

  predicate IsNewPlanar(plan: seq<PlanarGroup>, ai: int, aj: int, ak: int, al: int) {
    forall i :: 0 <= i < |plan| ==> !SamePlanar(plan[i], ai, aj, ak, al)
  }

  /** The four atoms index the bond-count table. */
  predicate IndexesBonds(ai: int, aj: int, ak: int, al: int, nbonds: seq<int>) {
    0 <= ai < |nbonds| && 0 <= aj < |nbonds| && 0 <= ak < |nbonds| && 0 <= al < |nbonds|
  }

  function FindPlanar(plan: seq<PlanarGroup>, ai: int, aj: int, ak: int, al: int, from: nat): (i: nat)
    requires from <= |plan|
    ensures from <= i <= |plan|
    ensures forall k :: from <= k < i ==> !SamePlanar(plan[k], ai, aj, ak, al)
    ensures i < |plan| ==> SamePlanar(plan[i], ai, aj, ak, al)
    decreases |plan| - from
  {
    if from == |plan| || SamePlanar(plan[from], ai, aj, ak, al) then from
    else FindPlanar(plan, ai, aj, ak, al, from + 1)
  }

  /** `gentop_vsite_add_planar`: appends the quadruple, with a snapshot of
      its atoms' bond counts, unless it or its reverse is stored. */
  function AddPlanar(r: Registry, ai: int, aj: int, ak: int, al: int, nbonds: seq<int>): (r': Registry)
    requires IsNewPlanar(r.plan, ai, aj, ak, al) ==> IndexesBonds(ai, aj, ak, al, nbonds)
    ensures r'.egvt == r.egvt && r'.lin == r.lin
    ensures !IsNewPlanar(r.plan, ai, aj, ak, al) ==> r'.plan == r.plan
    ensures IsNewPlanar(r.plan, ai, aj, ak, al) ==>
              && |r'.plan| == |r.plan| + 1
              && r'.plan[..|r.plan|] == r.plan
              && r'.plan[|r.plan|].a == [ai, aj, ak, al]
              && forall j :: 0 <= j < 4 ==> r'.plan[|r.plan|].nb[j] == nbonds[r'.plan[|r.plan|].a[j]]
  {
    if FindPlanar(r.plan, ai, aj, ak, al, 0) == |r.plan| then
      var g := PlanarGroup([ai, aj, ak, al], [nbonds[ai], nbonds[aj], nbonds[ak], nbonds[al]]);
      r.(plan := r.plan + [g])
    else r
  }

  /** Registering a quadruple and then the same quadruple, forwards or
      reversed and with any bond counts, stores it once with the first
      bond-count snapshot. */
  lemma AddPlanarIdempotent(r: Registry, ai: int, aj: int, ak: int, al: int, nb1: seq<int>, nb2: seq<int>)
    requires IsNewPlanar(r.plan, ai, aj, ak, al) ==> IndexesBonds(ai, aj, ak, al, nb1)
    ensures AddPlanar(AddPlanar(r, ai, aj, ak, al, nb1), ai, aj, ak, al, nb2) == AddPlanar(r, ai, aj, ak, al, nb1)
    ensures AddPlanar(AddPlanar(r, ai, aj, ak, al, nb1), al, ak, aj, ai, nb2) == AddPlanar(r, ai, aj, ak, al, nb1)
  {
    var r1 := AddPlanar(r, ai, aj, ak, al, nb1);
    var i := FindPlanar(r.plan, ai, aj, ak, al, 0);
    assert SamePlanar(r1.plan[i], ai, aj, ak, al);
    assert SamePlanar(r1.plan[i], al, ak, aj, ai);
  }
}

=== FILE: topology.dfy ===
/** The topology the virtual-site generator rewrites: the atom table with
    its masses, the coordinates, the bonded parameter lists and the
    per-atom exclusion lists. */
module Topology {

  /** A Cartesian coordinate (an `rvec`). */
  datatype Vec3 = Vec3(x: real, y: real, z: real)

  function Sub(u: Vec3, v: Vec3): Vec3 {
    Vec3(u.x - v.x, u.y - v.y, u.z - v.z)
  }

  function Add(u: Vec3, v: Vec3): Vec3 {
    Vec3(u.x + v.x, u.y + v.y, u.z + v.z)
  }

  function Scale(k: real, v: Vec3): Vec3 {
    Vec3(k * v.x, k * v.y, k * v.z)
  }

  const Origin: Vec3 := Vec3(0.0, 0.0, 0.0)

  /** The fields of a `t_atom` that the generator reads or writes: mass in
      state A and state B, atomic number, and type in state A and B. */
  datatype Atom = Atom(m: real, mB: real, atomnumber: int, atype: int, typeB: int)

  /** Sets the mass of both states, leaving every other field alone. */
  function WithMass(at: Atom, m: real): Atom {
    at.(m := m, mB := m)
  }

  /** Four slots: the atoms of a parameter entry or a group (`AI`..`AL`), or a planar group's per-atom bond counts. */
  type Quad = s: seq<int> | |s| == 4 witness [0, 0, 0, 0]

  /** The wildcard atom index accepted in the last slot of a dihedral pattern. */
  const Wildcard: int := -1

  /** One entry of a parameter list (`t_param`): its atoms and its force
      constants. Entries this generator creates list only the constants it
      sets (`C0`); the remaining constants are zero. */
  datatype Param = Param(a: Quad, c: seq<real>)

  /** The interaction kinds the generator touches. */
  datatype Kind = Bonds | Angles | PDihs | RBDihs | IDihs | Constr | VSite2

  /** One ordered parameter list per interaction kind. */
  datatype ParamLists = ParamLists(
    bonds: seq<Param>, angles: seq<Param>, pdihs: seq<Param>, rbdihs: seq<Param>,
    idihs: seq<Param>, constr: seq<Param>, vsite2: seq<Param>)
  {
    function Get(k: Kind): seq<Param> {
      match k
      case Bonds => bonds
      case Angles => angles
      case PDihs => pdihs
      case RBDihs => rbdihs
      case IDihs => idihs
      case Constr => constr
      case VSite2 => vsite2
    }

    /** Replaces the list of kind `k`; every other list is left as it was. */
    function Set(k: Kind, l: seq<Param>): (r: ParamLists)
      ensures r.Get(k) == l
      ensures forall k' :: k' != k ==> r.Get(k') == Get(k')
    {
      match k
      case Bonds => this.(bonds := l)
      case Angles => this.(angles := l)
      case PDihs => this.(pdihs := l)
      case RBDihs => this.(rbdihs := l)
      case IDihs => this.(idihs := l)
      case Constr => this.(constr := l)
      case VSite2 => this.(vsite2 := l)
    }
  }

  /** The whole mutable state: atoms, coordinates (one per atom), parameter
      lists and exclusion lists (one list of excluded atoms per atom). */
  datatype Topology = Topology(
    atoms: seq<Atom>, x: seq<Vec3>, plist: ParamLists, excls: seq<seq<int>>)

  /** Sum of the state-A masses of `atoms`. */
  function TotalMass(atoms: seq<Atom>): real
    decreases |atoms|
  {
    if |atoms| == 0 then 0.0 else TotalMass(atoms[..|atoms| - 1]) + atoms[|atoms| - 1].m
  }

  /** Changing one atom changes the total mass by the difference of the two masses. */
  lemma {:induction false} TotalMassUpdate(atoms: seq<Atom>, i: nat, at: Atom)
    requires i < |atoms|
    ensures TotalMass(atoms[i := at]) == TotalMass(atoms) - atoms[i].m + at.m
    decreases |atoms|
  {
    var n := |atoms| - 1;
    var s := atoms[i := at];
    assert s[..n] == if i == n then atoms[..n] else atoms[..n][i := at];
    if i < n {
      TotalMassUpdate(atoms[..n], i, at);
    }
  }

  /** Appending an atom adds its mass. */
  lemma TotalMassAppend(atoms: seq<Atom>, at: Atom)
    ensures TotalMass(atoms + [at]) == TotalMass(atoms) + at.m
  {
    assert (atoms + [at])[..|atoms|] == atoms;
  }
}
